=== FILE: README.md ===
# replace-bean-boot-starter: the bean-override engine in Dafny

The starter lets an application replace a Spring bean by declaring a
subclass annotated with `@Replace`. At startup, `ReplaceBeanInitializer`
does the following:

- It collects the configured scan roots (`replace.packages`) from every property source.
- It reduces the roots to a sorted list.
- It scans the classes under each root.
- It folds every `@Replace` class into a registry keyed by bean name. The smallest `order` wins, and the first class seen wins a tie.
- It logs a sorted listing of the registry.
- It installs `ReplaceBeanPostProcessor`.

Afterwards the container asks the post-processor about every bean just before
instantiating it. On a registry hit, the post-processor installs a supplier on
the bean definition. The supplier either calls a static instantiation method
with pre-computed container arguments, or reflects the replacement class's
constructor. The post-processor also marks the entry as used.

The model treats reflection and scanning as data:
- a class is a record of declared methods and constructors;
- a parameter is its declared type plus an optional `@Value` expression;
- the subtype relation is a map from a type to its supertypes;
- a scan is a sequence of class-metadata records.

The process-wide static registry becomes a value threaded through pure
functions. Every exception becomes an `Err` of a `Result`.

Modules:

| file | module | what it holds |
|---|---|---|
| results.dfy | `Results` | `Option`, `Result` and the error cases the code raises |
| java_lang.dfy | `JavaLang` | `int` range, `hasText`, `trim`, the comma split behind `commaDelimitedListToSet`, `Integer.toString` |
| string_order.dfy | `StringOrder` | `String.compareTo` as a strict total order; sorting a set |
| reflection.dfy | `Reflection` | type, method, constructor and parameter descriptors; `isAssignableFrom`; the container-object whitelist |
| replace_annotation.dfy | `ReplaceAnnotation` | the `@Replace` attributes and their defaults |
| bean_names.dfy | `BeanNames` | `getShortName`, `Introspector.decapitalize` (section 8.8 of the JavaBeans 1.01 specification), `deduceBeanName`, scoped-target names |
| registry.dfy | `Registry` | `findUniqueStaticMethod`, `register`, the per-class scan step and its fold, with the fold's properties |
| instantiation.dfy | `Instantiation` | the supplier, constructor selection and parameter resolution |
| hook.dfy | `Hook` | `postProcessBeforeInstantiation` and `unReplacedBean` |
| summary.dfy | `Summary` | `ReplaceInfo.print` and `replaceMapToString` |
| scan_paths.dfy | `ScanPaths` | `ReplaceBeanInitializer.packages`, the scan-root reducer |
| initializer.dfy | `Initializer` | the `TIMES` gate, `optimizeConfig`, `registerFromScan` and `initialize` |

Where the documentation and the code disagree, the model follows the code:
- With several public constructors, the first `@Autowired` one is used; several annotated constructors are not an error.
- The post-processor installs an instance supplier. It does not change the definition's bean class.
- The scan-root reducer compares only adjacent sorted roots. So it does not always keep "only the shortest path", as its comment promises (`ScanPaths.NotMinimal`).

## Model

| member | source | states |
|---|---|---|
| JavaLang.Trim | src/main/java/io/github/xiejx618/replace/ReplaceBeanPostProcessor.java:124 | `pkg.trim()`: the result is a contiguous slice of the input, only characters at or below the blank are cut from either end, and the result neither starts nor ends with one |
| JavaLang.TrimIs | src/main/java/io/github/xiejx618/replace/ReplaceBeanPostProcessor.java:124 | trimming is determined by the text: a slice with only trimmable characters around it that starts and ends with a kept character is the trimmed text |
| JavaLang.TrimmedHasText | src/main/java/io/github/xiejx618/replace/ReplaceBeanPostProcessor.java:132 | `hasText` fails on the empty string, and holds whenever something survives `trim` |
| JavaLang.NulHasTextButTrimsAway | src/main/java/io/github/xiejx618/replace/ReplaceBeanPostProcessor.java:132 | the converse fails: `"\0"` has text, because NUL is not whitespace, yet `trim` leaves nothing of it |
| JavaLang.CommaDelimitedSet | src/main/java/io/github/xiejx618/replace/ReplaceBeanInitializer.java:99 | an empty property value contributes no entries; otherwise the entries are exactly the comma-free slices that run from the start or a comma to the next comma or the end, blanks and empty fields kept; no entry holds a comma |
| JavaLang.Fields | src/main/java/io/github/xiejx618/replace/ReplaceBeanInitializer.java:99 | the split yields at least one field and no field contains a comma |
| JavaLang.FieldsAreFields | src/main/java/io/github/xiejx618/replace/ReplaceBeanInitializer.java:99 | the split yields exactly the comma-free slices between neighbouring commas or the ends of the value |
| JavaLang.CommaDelimitedSetOfJoin | src/main/java/io/github/xiejx618/replace/ReplaceBeanInitializer.java:99 | a comma-joined list of comma-free entries reads back as exactly those entries, unless it is the single empty entry |
| JavaLang.JoinFields | src/main/java/io/github/xiejx618/replace/ReplaceBeanInitializer.java:99 | joining the comma-separated fields with commas gives back the original value: the split loses nothing |
| JavaLang.FieldsOfJoin | src/main/java/io/github/xiejx618/replace/ReplaceBeanInitializer.java:99 | splitting a comma-join of comma-free fields gives back those fields |
| JavaLang.IntToString | src/main/java/io/github/xiejx618/replace/ReplaceBeanPostProcessor.java:288 | the decimal text of an order is non-empty, starts with a minus exactly for a negative order, is digits after the optional minus, and has no leading zero for a positive or a negative order |
| JavaLang.IntToStringRoundTrip | src/main/java/io/github/xiejx618/replace/ReplaceBeanPostProcessor.java:288 | the decimal text of an order in a listing line reads back as that order |
| StringOrder.LessTransitive | src/main/java/io/github/xiejx618/replace/ReplaceBeanInitializer.java:134 | `String.compareTo` order is transitive |
| StringOrder.LessTotal | src/main/java/io/github/xiejx618/replace/ReplaceBeanInitializer.java:134 | any two distinct strings are ordered one way or the other |
| StringOrder.SortedSet | src/main/java/io/github/xiejx618/replace/ReplaceBeanInitializer.java:132-134 | sorting a set of roots gives a strictly ascending list holding exactly the set's elements, each once |
| StringOrder.SortedSetIsUnique | src/main/java/io/github/xiejx618/replace/ReplaceBeanInitializer.java:132-134 | any strictly ascending list with the set's elements is the sorted one, so the sort is determined by the set |
| StringOrder.LessIsLexBefore | src/main/java/io/github/xiejx618/replace/ReplaceBeanInitializer.java:134 | `compareTo` below zero means a proper prefix, or a smaller character at the first position where the two differ |
| Reflection.Whitelisted | src/main/java/io/github/xiejx618/replace/ReplaceBeanPostProcessor.java:193-202 | a parameter receives the first of application context, bean factory and environment that its type can hold; a later one only when the earlier ones do not fit; none exactly when no container object fits |
| Reflection.ObjectParameterGetsContext | src/main/java/io/github/xiejx618/replace/ReplaceBeanPostProcessor.java:193-195 | an `Object` parameter of a static instantiation method receives the application context |
| ReplaceAnnotation.DefaultOrderIsLowestPriority | src/main/java/io/github/xiejx618/replace/Replace.java:20-39 | the default order is the largest int, so every order ties or beats it; the default `instantiateMethod` selects constructor reflection |
| BeanNames.AfterLastDot | src/main/java/io/github/xiejx618/replace/ReplaceBeanPostProcessor.java:217 | the short-name base is the dot-free suffix after the last dot, or the whole name when it has no dot |
| BeanNames.DollarToDot | src/main/java/io/github/xiejx618/replace/ReplaceBeanPostProcessor.java:217 | same length; every `$` becomes a dot and every other character is kept |
| BeanNames.ShortName | src/main/java/io/github/xiejx618/replace/ReplaceBeanPostProcessor.java:217 | the short name has no `$`; it is as long as the part after the last dot, has a dot exactly where that part has a `$`, and agrees with it elsewhere |
| BeanNames.Decapitalize | src/main/java/io/github/xiejx618/replace/ReplaceBeanPostProcessor.java:217 | the first character is lower-cased unless the first two are both capitals; the rest is unchanged |
| BeanNames.DecapitalizeIdempotent | src/main/java/io/github/xiejx618/replace/ReplaceBeanPostProcessor.java:217 | decapitalizing an inferred name again changes nothing |
| BeanNames.DeduceBeanName | src/main/java/io/github/xiejx618/replace/ReplaceBeanPostProcessor.java:215-218 | an explicit value with text is the bean name; otherwise the name is the decapitalized short name of the supertype |
| BeanNames.ShortNameOfQualified | src/main/java/io/github/xiejx618/replace/ReplaceBeanPostProcessor.java:217 | the short name of `pkg.Name` is `Name`, for any package prefix |
| BeanNames.AfterLastDotOfQualified | src/main/java/io/github/xiejx618/replace/ReplaceBeanPostProcessor.java:217 | the part of `pkg.Name` after its last dot is `Name`, for any package prefix |
| BeanNames.ShortNameOfNested | src/main/java/io/github/xiejx618/replace/ReplaceBeanPostProcessor.java:217 | the short name of `pkg.Outer$Inner` is `Outer.Inner` |
| BeanNames.ShortNameOfUnqualified | src/main/java/io/github/xiejx618/replace/ReplaceBeanPostProcessor.java:217 | a class in the default package is its own short name |
| BeanNames.InferredFromSupertype | src/main/java/io/github/xiejx618/replace/Replace.java:15-20 | with the default empty value, `pkg.Name` as supertype names the bean `decapitalize(Name)` |
| BeanNames.InferredFromNestedSupertype | src/main/java/io/github/xiejx618/replace/ReplaceBeanPostProcessor.java:217 | a nested supertype `pkg.Outer$Inner` names the bean `decapitalize(Outer.Inner)` |
| BeanNames.InferredFromUnqualifiedSupertype | src/main/java/io/github/xiejx618/replace/ReplaceBeanPostProcessor.java:217 | a supertype in the default package names the bean after its decapitalized name |
| BeanNames.TestServiceName | src/test/java/io/github/xiejx618/replace/demo/ext/TestServiceExt.java:13-14 | a bare `@Replace` on a subclass of `demo.service.TestService` replaces the bean `testService` |
| BeanNames.LookupName | src/main/java/io/github/xiejx618/replace/ReplaceBeanPostProcessor.java:52-53 | a scoped-target name is looked up under the original name it was built from; any other name under itself |
| BeanNames.LookupScopedTarget | src/main/java/io/github/xiejx618/replace/ReplaceBeanPostProcessor.java:52-53 | the scoped target of bean `n` finds `n`'s entry |
| Registry.StaticNamedCount | src/main/java/io/github/xiejx618/replace/ReplaceBeanPostProcessor.java:158-160 | the filtered candidates are empty exactly when no declared method is static with that name, two or more exactly when two are, and a single one is the only such declared method |
| Registry.FindUniqueStaticMethod | src/main/java/io/github/xiejx618/replace/ReplaceBeanPostProcessor.java:157-168 | NoSuchMethodException iff no static method of that name is declared, IllegalArgumentException iff two are; exactly one static method of that name always succeeds and gives that one, whatever its visibility, and instance methods of that name are ignored |
| Registry.UniqueCandidateFound | src/main/java/io/github/xiejx618/replace/ReplaceBeanPostProcessor.java:157-168 | when exactly one declared method is static and has the requested name, the lookup returns that method, whatever else the class declares |
| Registry.PrivateFactoryAccepted | src/test/java/io/github/xiejx618/replace/demo/ext/BeanServiceExt.java:8-11 | a private parameterless static `instantiate` next to an instance `instantiate(Object)` is registered with no arguments |
| Registry.FirstUnsupported | src/main/java/io/github/xiejx618/replace/ReplaceBeanPostProcessor.java:190-203 | every parameter before the returned index takes a container object, the one at the index takes none |
| Registry.FactoryArgs | src/main/java/io/github/xiejx618/replace/ReplaceBeanPostProcessor.java:188-203 | arguments exist exactly when every parameter takes a container object; then one per parameter, each the whitelisted one; otherwise the error names the first parameter that takes none |
| Registry.Register | src/main/java/io/github/xiejx618/replace/ReplaceBeanPostProcessor.java:181-206 | a blank method name stores a constructor-reflection entry; otherwise the class must load, the method be unique and every argument whitelisted, and when all three hold registration succeeds; on success exactly one entry is (re)written with `replaced` cleared; the failure is ClassNotFound for a missing class, the lookup's own NoSuchMethodException (no static method of that name) or IllegalArgumentException (two or more), or the IllegalArgumentException naming the first unsupported parameter type |
| Registry.ScanOne | src/main/java/io/github/xiejx618/replace/ReplaceBeanPostProcessor.java:126-141 | a class without `@Replace` changes nothing; one without a superclass fails even with an explicit name; one whose order is not strictly smaller than the stored one changes nothing (its method is never resolved); otherwise the result is exactly `register` for its target name, order, class and method, so only that name is added or overwritten, unused, with its order and class |
| Registry.ScanAll | src/main/java/io/github/xiejx618/replace/ReplaceBeanPostProcessor.java:121-147 | no classes change nothing; a failed scan fails at some class, with the error that class raises on the registry the classes before it left |
| Registry.ScanAllRefines | src/main/java/io/github/xiejx618/replace/ReplaceBeanPostProcessor.java:121-147 | a scan never removes a name and never raises a stored order |
| Registry.ScanAllFrame | src/main/java/io/github/xiejx618/replace/ReplaceBeanPostProcessor.java:121-147 | a name no scanned class targets is left exactly as it was |
| Registry.ScanAllOrigin | src/main/java/io/github/xiejx618/replace/ReplaceBeanPostProcessor.java:121-147 | every name a scan adds is the target of some scanned class |
| Registry.ScanAllFresh | src/main/java/io/github/xiejx618/replace/ReplaceBeanPostProcessor.java:141 | every entry a scan adds or overwrites is marked unused |
| Registry.ScanAllCovers | src/main/java/io/github/xiejx618/replace/ReplaceBeanPostProcessor.java:121-147 | after a successful scan every `@Replace` class has a superclass and its target is stored with an order at most its own |
| Registry.ScanAllCoveredFixed | src/main/java/io/github/xiejx618/replace/ReplaceBeanPostProcessor.java:134-138 | classes already covered by the registry are all skipped |
| Registry.ScanAllIdempotent | src/main/java/io/github/xiejx618/replace/ReplaceBeanPostProcessor.java:121-147 | scanning the same classes a second time leaves the registry unchanged |
| Registry.ScanAllWinner | src/main/java/io/github/xiejx618/replace/ReplaceBeanPostProcessor.java:134-141 | for a name the scan adds, the stored order and class are those of the class with the smallest order, the earliest among equals |
| Registry.TieGoesToFirst | src/main/java/io/github/xiejx618/replace/ReplaceBeanPostProcessor.java:136 | of two constructor-reflection classes with equal order for one bean, the scan succeeds and the first scanned keeps the bean |
| Registry.MinOrderIsFinal | src/main/java/io/github/xiejx618/replace/Replace.java:26 | an entry stored with `Integer.MIN_VALUE` survives every later scan unchanged |
| Instantiation.SupplierFor | src/main/java/io/github/xiejx618/replace/ReplaceBeanPostProcessor.java:71-76 | an entry with a static method gets a supplier invoking exactly that method with its stored arguments; any other gets constructor reflection on the entry's class |
| Instantiation.PublicConstructors | src/main/java/io/github/xiejx618/replace/ReplaceBeanPostProcessor.java:79 | the candidates are the public constructors, each once per entry and in the order of `ClassInfo.constructors` |
| Instantiation.PublicIndices | src/main/java/io/github/xiejx618/replace/ReplaceBeanPostProcessor.java:79 | the positions in `ClassInfo.constructors` of the public constructors, strictly increasing |
| Instantiation.FirstAutowired | src/main/java/io/github/xiejx618/replace/ReplaceBeanPostProcessor.java:82-84 | the index of the first `@Autowired` constructor, none exactly when no constructor is annotated |
| Instantiation.SelectConstructor | src/main/java/io/github/xiejx618/replace/ReplaceBeanPostProcessor.java:79-85 | no public constructor fails; a single one is used annotated or not; with several, failure exactly when none is `@Autowired`, and otherwise success with the first annotated one |
| Instantiation.TwoPlainConstructorsFail | src/main/java/io/github/xiejx618/replace/ReplaceBeanPostProcessor.java:82-84 | two constructors without `@Autowired` fail |
| Instantiation.FirstOfSeveralAutowired | src/main/java/io/github/xiejx618/replace/ReplaceBeanPostProcessor.java:82-84 | several `@Autowired` constructors are accepted and the first is used |
| Instantiation.ResolveParam | src/main/java/io/github/xiejx618/replace/ReplaceBeanPostProcessor.java:87-101 | a constructor parameter gets a container object when one fits, else its `@Value` expression converted to its type, else the bean of its type |
| Instantiation.ObjectParamGetsContext | src/main/java/io/github/xiejx618/replace/ReplaceBeanPostProcessor.java:88-89 | an `Object` constructor parameter gets the application context even when it carries `@Value` |
| Instantiation.ResolveParams | src/main/java/io/github/xiejx618/replace/ReplaceBeanPostProcessor.java:86-102 | one argument per parameter, each resolved independently |
| Instantiation.CallSupplier | src/main/java/io/github/xiejx618/replace/ReplaceBeanPostProcessor.java:71-108 | a factory supplier calls its method with the stored arguments; a reflective one fails on a missing class or failed selection, else calls the selected public constructor with one resolved argument per parameter |
| Hook.PostProcessBeforeInstantiation | src/main/java/io/github/xiejx618/replace/ReplaceBeanPostProcessor.java:50-66 | no entry under the lookup name, or a scoped-proxy factory definition, changes nothing; a definition that is not abstract fails; otherwise the definition gets the entry's supplier, the entry is marked replaced and nothing else changes |
| Hook.AuditAfterRequests | src/main/java/io/github/xiejx618/replace/ReplaceBeanPostProcessor.java:238-241 | after a run of container requests the audit is what it was before less every name some request substituted |
| Hook.AuditAfterScan | src/main/java/io/github/xiejx618/replace/ReplaceBeanPostProcessor.java:238-241 | right after a scan into an unused registry every registered name is in the audit |
| Hook.HookKeepsResolution | src/main/java/io/github/xiejx618/replace/ReplaceBeanPostProcessor.java:50-66 | the hook never adds or removes names, nor changes a stored order, class or factory |
| Hook.HookUpdatesAudit | src/main/java/io/github/xiejx618/replace/ReplaceBeanPostProcessor.java:64 | a substitution removes exactly its name from the audit; no substitution leaves the audit as it was |
| Hook.HookIdempotent | src/main/java/io/github/xiejx618/replace/ReplaceBeanPostProcessor.java:50-66 | running the hook again on its own output changes nothing |
| Hook.HelloServiceScenario | src/test/java/io/github/xiejx618/replace/demo/ext/HelloServiceExt.java:6-7 | `helloService` registered from `HelloServiceExt` gets a constructor-reflection supplier and then leaves the audit empty |
| Summary.ReplaceMapToString | src/main/java/io/github/xiejx618/replace/ReplaceBeanPostProcessor.java:226-233 | fails exactly when asked to assert a non-empty registry that is empty; otherwise the header, then one line per registry name in ascending name order |
| Summary.SummaryDeterministic | src/main/java/io/github/xiejx618/replace/ReplaceBeanPostProcessor.java:230-231 | every ascending listing of the registry's names renders the same text, so the output does not depend on hash order |
| Summary.Print | src/main/java/io/github/xiejx618/replace/ReplaceBeanPostProcessor.java:287-289 | `print` starts with the class name followed by `[` and ends with `]` |
| Summary.PrintInjective | src/main/java/io/github/xiejx618/replace/ReplaceBeanPostProcessor.java:287-289 | for class names without `[`, two entries print alike only if they agree on class, order and method name |
| Summary.Line | src/main/java/io/github/xiejx618/replace/ReplaceBeanPostProcessor.java:230-231 | a listing line starts with two blanks and ends with `;` and a newline, and is a single line when the names in it have no newline |
| ScanPaths.Reduce | src/main/java/io/github/xiejx618/replace/ReplaceBeanInitializer.java:135-141 | a root stays exactly when it is the first or is not under its sorted predecessor |
| ScanPaths.Packages | src/main/java/io/github/xiejx618/replace/ReplaceBeanInitializer.java:128-144 | no roots give none; the output is ascending, drawn from the input, and starts with the smallest root |
| ScanPaths.ReduceAscending | src/main/java/io/github/xiejx618/replace/ReplaceBeanInitializer.java:136-141 | removing roots from a sorted list keeps it sorted |
| ScanPaths.PackagesKeepsIff | src/main/java/io/github/xiejx618/replace/ReplaceBeanInitializer.java:136-139 | a root is dropped exactly when it lies under its sorted predecessor |
| ScanPaths.ReduceCovers | src/main/java/io/github/xiejx618/replace/ReplaceBeanInitializer.java:136-141 | every sorted root is, or lies under, some kept root |
| ScanPaths.PackagesCover | src/main/java/io/github/xiejx618/replace/ReplaceBeanInitializer.java:128-144 | every configured root is, or lies under, some returned root |
| ScanPaths.UnderIff | src/main/java/io/github/xiejx618/replace/ReplaceBeanInitializer.java:137 | `(p + ".").startsWith(q + ".")` holds exactly when `p` is `q`, or `q` followed by a dot starts `p` |
| ScanPaths.UnderTrim | src/main/java/io/github/xiejx618/replace/ReplaceBeanPostProcessor.java:124 | a class without blanks or control characters in the trimmed root `p` is also in the trimmed root `q` that `p` lies under |
| ScanPaths.PackagesCoverClasses | src/main/java/io/github/xiejx618/replace/ReplaceBeanInitializer.java:128-144 | a class without blanks or control characters in some trimmed configured root is in some trimmed returned root |
| ScanPaths.BlankRootLosesClass | src/main/java/io/github/xiejx618/replace/ReplaceBeanInitializer.java:128-144 | `{a , a .b}` reduces to `[a ]`, and the class `a .b.X` in the trimmed `a .b` is not in the trimmed `a` |
| ScanPaths.NotMinimal | src/main/java/io/github/xiejx618/replace/ReplaceBeanInitializer.java:124-139 | `{a, a.b, a.c}` reduces to `[a, a.c]` though `a.c` lies under `a` |
| ScanPaths.DotBoundary | src/main/java/io/github/xiejx618/replace/ReplaceBeanInitializer.java:137 | `com.app2` is not under `com.app`, `com.app.service` is |
| ScanPaths.UntrimmedRootsKept | src/main/java/io/github/xiejx618/replace/ReplaceBeanInitializer.java:132-141 | in `com.app, com.app.web` the blank-led second root sorts first and is not reduced away |
| Initializer.Gate | src/main/java/io/github/xiejx618/replace/ReplaceBeanInitializer.java:43-51 | every call increments the counter; a call proceeds only when it brings the counter from below the threshold to it |
| Initializer.ProceedingCount | src/main/java/io/github/xiejx618/replace/ReplaceBeanInitializer.java:43-51 | of any run of calls, exactly one proceeds if the run crosses the threshold, none otherwise |
| Initializer.OnlyOnce | src/main/java/io/github/xiejx618/replace/ReplaceBeanInitializer.java:41-51 | from a fresh process, exactly one call proceeds once there have been one call (two with bootstrap), and none before |
| Initializer.Entries | src/main/java/io/github/xiejx618/replace/ReplaceBeanInitializer.java:96-105 | a missing or non-string property contributes nothing; a non-empty string contributes exactly its comma-separated fields |
| Initializer.Collect | src/main/java/io/github/xiejx618/replace/ReplaceBeanInitializer.java:93-106 | the collected entries are exactly those of some property source |
| Initializer.CollectOrderIrrelevant | src/main/java/io/github/xiejx618/replace/ReplaceBeanInitializer.java:95-106 | the precedence order of the property sources does not matter: all are merged |
| Initializer.OptimizeConfig | src/main/java/io/github/xiejx618/replace/ReplaceBeanInitializer.java:92-108 | factories are the union over sources; each package comes from some source; every configured package is covered by a returned one; no packages iff none configured |
| Initializer.PackageIndices | src/main/java/io/github/xiejx618/replace/ReplaceBeanPostProcessor.java:123-125 | the index positions of the classes in the trimmed package or below it, strictly increasing |
| Initializer.ClassesUnder | src/main/java/io/github/xiejx618/replace/ReplaceBeanPostProcessor.java:123-125 | the classes found for a root are the indexed ones in the trimmed package or below it, once per index entry and in index order |
| Initializer.ScanOrder | src/main/java/io/github/xiejx618/replace/ReplaceBeanPostProcessor.java:121-125 | the scan visits exactly the indexed classes under some root |
| Initializer.ScanOrderAppend | src/main/java/io/github/xiejx618/replace/ReplaceBeanPostProcessor.java:121-125 | the scan goes root by root: scanning two lists of roots one after the other is scanning the first list's classes, then the second's |
| Initializer.ScanOrderOfOne | src/main/java/io/github/xiejx618/replace/ReplaceBeanPostProcessor.java:121-125 | a single root is scanned as exactly the classes found under it, in index order |
| Initializer.ScanFindsEveryClass | src/main/java/io/github/xiejx618/replace/ReplaceBeanPostProcessor.java:121-125 | scanning the reduced roots finds every indexed class without blanks or control characters in its name that some configured root contains |
| Initializer.RegisterFromScan | src/main/java/io/github/xiejx618/replace/ReplaceBeanPostProcessor.java:115-147 | no roots change nothing; a successful scan only grows the registry and lowers orders, covers every scanned `@Replace` class, and adds only names some scanned class targets |
| Initializer.Initialize | src/main/java/io/github/xiejx618/replace/ReplaceBeanInitializer.java:39-75 | a call that does not pass the gate, or finds the feature disabled, only advances the counter; otherwise it fails exactly when the scan fails or leaves the registry empty, and on success stores the scan's registry, logs its listing and installs the post-processor |

## Left out

- Classpath scanning and metadata reading are left out: they are I/O. The scan is the input sequence of class-metadata records (`index`). A root finds the records whose class name starts with the trimmed root followed by a dot. An empty root matches nothing; Spring's handling of a root-level `classpath*:` pattern is not modelled.
- Reflection is left out: `Class.forName`, `getDeclaredMethods`, `getConstructors` ordering, `setAccessible`, `invokeMethod` and `newInstance`. Classes are records in a `Classpath` map, and the subtype relation is a map to supertypes. Invoking a supplier yields an `Invocation` description rather than an object.
- Failures inside a supplier call are left out. `getBean`, placeholder resolution, value conversion and the constructor itself are opaque container services. Instantiation.CallSupplier does not model their failures or the `RuntimeException` wrapping them.
- Exceptions are left out as exception types. Each is an `Err` with an error case, and the `RuntimeException` wrapping in `registerFromScan` is not distinguished. The entries a failed scan had already stored are not returned, because startup aborts.
- The hook's return value is not modelled: it always returns null.
- Hook.UnReplaced returns a set: `unReplacedBean` returns a list in the hash order of the registry's keys, and that order is not modelled.
- Initializer.Initialize: when the scan fails the result is the error alone, so the `TIMES` increment made before the scan is not returned. Startup aborts on that error, so the counter is never read again.
- `bootstrapEnabled` is the boolean input `bootstrap` of Initializer.Initialize. It probes the environment and the classpath, which the model does not.
- Scan roots are literal package names. Ant-style wildcards such as `com.*.service`, which the resource pattern resolver would expand, are not modelled.
- `replace.enabled` is a boolean input. Binding it through Spring's `Binder` is not modelled.
- `factories()` is left out: it instantiates factory classes reflectively. The model keeps only the collected factory class names.
- `ReplaceBeanPostProcessor` defines neither `registerFromFactory` nor a one-argument constructor, so the calls `initialize` makes to them are left out.
- ReplaceAutoConfig.java is not part of this model.
- ReplaceProperties.java is not part of this model.
- Logging and ANSI colouring are left out. The listing is the string `replaceMapToString` returns; the log call is not modelled.
- Adding the post-processor to a parent bean factory is left out. `installed` records only that it was added.
- Concurrency is left out. The `AtomicInteger` counter is a sequential, unbounded natural number.
- Character classes are ASCII only. `hasText` whitespace and `decapitalize`'s upper-case test do not cover other Unicode letters or spaces.
- `String.compareTo` compares UTF-16 code units. The model compares Dafny characters, which is the same order for characters outside the surrogate range.
- `ClassUtils.getShortName` also cuts a CGLIB `$$` suffix. The model does not, since scanned class names come from class files and carry no proxy suffix.
- Summary.ReplaceMapToString: the order inside a line is printed with `Integer.toString`. JavaLang.IntToStringRoundTrip proves the text reads back as the order, but no concrete listing line is stated as a literal string.

=== FILE: bean_names.dfy ===
/** Bean-name deduction: the explicit `@Replace` value, or the decapitalized
    short name of the supertype; and the scoped-proxy target naming scheme. */
module BeanNames {
  import opened JavaLang

  // ---------------------------------------------------------------------------
  // ClassUtils.getShortName

  /** The part of a qualified name after its last dot. */
  function AfterLastDot(s: string): (r: string)
    ensures '.' !in r
    ensures |r| <= |s| && r == s[|s| - |r|..]
    ensures r == s || s[|s| - |r| - 1] == '.'
  {
    if s == [] || s[|s| - 1] == '.' then []
    else
      var p := s[..|s| - 1];
      var r := AfterLastDot(p);
      assert p[|p| - |r|..] + [s[|s| - 1]] == s[|s| - |r| - 1..];
      assert r != p ==> p[|p| - |r| - 1] == s[|s| - |r| - 2];
      r + [s[|s| - 1]]
  }

  /** Nested-class separators `$` become dots. */
  function DollarToDot(s: string): (r: string)
    ensures |r| == |s|
    ensures forall i :: 0 <= i < |s| ==> r[i] == (if s[i] == '$' then '.' else s[i])
  {
    if s == [] then [] else [if s[0] == '$' then '.' else s[0]] + DollarToDot(s[1..])
  }

  /** `ClassUtils.getShortName`: `a.b.Outer$Inner` gives `Outer.Inner`. */
  function ShortName(className: string): (r: string)
    ensures '$' !in r
    ensures |r| == |AfterLastDot(className)|
    ensures forall i :: 0 <= i < |r| ==> (r[i] == '.' <==> AfterLastDot(className)[i] == '$')
    ensures forall i :: 0 <= i < |r| && AfterLastDot(className)[i] != '$' ==> r[i] == AfterLastDot(className)[i]
  {
    var last := AfterLastDot(className);
    var r := DollarToDot(last);
    forall i | 0 <= i < |r|
      ensures r[i] != '$' && (r[i] == '.' <==> last[i] == '$')
    {
      assert last[i] in last;
    }
    r
  }

  // ---------------------------------------------------------------------------
  // Introspector.decapitalize, section 8.8 of the JavaBeans 1.01 specification

  predicate IsUpper(c: char) {
    'A' <= c <= 'Z'
  }

  function ToLower(c: char): (r: char)
    ensures !IsUpper(r)
  {
    if IsUpper(c) then (c as int + 32) as char else c
  }

  /** Lower-cases the first character, unless the first two characters are
      both upper case (so `URL` stays `URL`, `FooBah` becomes `fooBah`). */
  function Decapitalize(name: string): (r: string)
    ensures |r| == |name|
    ensures |name| > 0 ==> r[1..] == name[1..]
    ensures |name| > 1 && IsUpper(name[0]) && IsUpper(name[1]) ==> r == name
    ensures |name| > 0 && !(|name| > 1 && IsUpper(name[0]) && IsUpper(name[1])) ==> r[0] == ToLower(name[0])
  {
    if |name| == 0 then name
    else if |name| > 1 && IsUpper(name[0]) && IsUpper(name[1]) then name
    else [ToLower(name[0])] + name[1..]
  }

  /** Decapitalizing twice is decapitalizing once. */
  lemma DecapitalizeIdempotent(name: string)
    ensures Decapitalize(Decapitalize(name)) == Decapitalize(name)
  {
  }

  /** `deduceBeanName`: the explicit value when it has text, otherwise the
      supertype's decapitalized short name. */
  function DeduceBeanName(value: string, superClassName: string): (r: string)
    ensures HasText(value) ==> r == value
    ensures !HasText(value) ==> r == Decapitalize(ShortName(superClassName))
  {
    if HasText(value) then value else Decapitalize(ShortName(superClassName))
  }

  // ---------------------------------------------------------------------------
  // ScopedProxyUtils

  const SCOPED_TARGET_PREFIX: string := "scopedTarget."

  /** The name the container gives the target bean behind a scoped proxy. */
  function ScopedTargetName(originalName: string): string {
    SCOPED_TARGET_PREFIX + originalName
  }

  predicate IsScopedTarget(beanName: string) {
    StartsWith(beanName, SCOPED_TARGET_PREFIX)
  }

  /** The registry key for a bean name: the original name for a scoped
      target, the name itself otherwise. */
  function LookupName(beanName: string): (r: string)
    ensures IsScopedTarget(beanName) ==> ScopedTargetName(r) == beanName
    ensures !IsScopedTarget(beanName) ==> r == beanName
  {
    if IsScopedTarget(beanName) then beanName[|SCOPED_TARGET_PREFIX|..] else beanName
  }

  /** Looking up a scoped target finds its original bean's entry. */
  lemma LookupScopedTarget(originalName: string)
    ensures IsScopedTarget(ScopedTargetName(originalName))
    ensures LookupName(ScopedTargetName(originalName)) == originalName
  {
    assert ScopedTargetName(originalName)[|SCOPED_TARGET_PREFIX|..] == originalName;
  }

  /** The text after the last dot of `pkg.name` is `name`, for a dot-free
      `name`: no dot of the package can come after the separator. */
  lemma {:induction false} AfterLastDotOfQualified(pkg: string, name: string)
    requires '.' !in name
    ensures AfterLastDot(pkg + "." + name) == name
    decreases |name|
  {
    var s := pkg + "." + name;
    if name != [] {
      var init := name[..|name| - 1];
      assert name[|name| - 1] in name;
      assert s[..|s| - 1] == pkg + "." + init;
      assert '.' !in init by {
        assert forall k :: 0 <= k < |init| ==> init[k] == name[k];
      }
      AfterLastDotOfQualified(pkg, init);
      assert name == init + [name[|name| - 1]];
    }
  }

  /** A name without dots is its own text after the last dot. */
  lemma {:induction false} AfterLastDotOfPlain(name: string)
    requires '.' !in name
    ensures AfterLastDot(name) == name
    decreases |name|
  {
    if name != [] {
      var init := name[..|name| - 1];
      assert name[|name| - 1] in name;
      assert '.' !in init by {
        assert forall k :: 0 <= k < |init| ==> init[k] == name[k];
      }
      AfterLastDotOfPlain(init);
      assert name == init + [name[|name| - 1]];
    }
  }

  /** The short name of `pkg.Name` is `Name` when `Name` is a plain,
      non-nested class name. */
  lemma ShortNameOfQualified(pkg: string, name: string)
    requires '.' !in name && '$' !in name
    ensures ShortName(pkg + "." + name) == name
  {
    AfterLastDotOfQualified(pkg, name);
    assert DollarToDot(name) == name;
  }

  /** A nested class `pkg.Outer$Inner` has the short name `Outer.Inner`. */
  lemma ShortNameOfNested(pkg: string, outer: string, inner: string)
    requires '.' !in outer && '$' !in outer && '.' !in inner && '$' !in inner
    ensures ShortName(pkg + "." + outer + "$" + inner) == outer + "." + inner
  {
    var name := outer + "$" + inner;
    var dotted := outer + "." + inner;
    assert pkg + "." + outer + "$" + inner == pkg + "." + name;
    forall k | 0 <= k < |name|
      ensures name[k] != '.'
      ensures DollarToDot(name)[k] == dotted[k]
    {
      if k < |outer| {
        assert name[k] == outer[k] && dotted[k] == outer[k];
        assert outer[k] in outer;
      } else if k == |outer| {
        assert name[k] == '$' && dotted[k] == '.';
      } else {
        assert name[k] == inner[k - |outer| - 1] && dotted[k] == inner[k - |outer| - 1];
        assert inner[k - |outer| - 1] in inner;
      }
    }
    AfterLastDotOfQualified(pkg, name);
    assert DollarToDot(name) == dotted;
  }

  /** A class in the default package is its own short name. */
  lemma ShortNameOfUnqualified(name: string)
    requires '.' !in name && '$' !in name
    ensures ShortName(name) == name
  {
    AfterLastDotOfPlain(name);
    assert DollarToDot(name) == name;
  }

  /** Without an explicit value, `pkg.Name` names the bean `name`. */
  lemma InferredFromSupertype(pkg: string, name: string)
    requires '.' !in name && '$' !in name
    ensures DeduceBeanName("", pkg + "." + name) == Decapitalize(name)
  {
    assert !HasText("");
    ShortNameOfQualified(pkg, name);
  }

  /** Without an explicit value, a nested supertype `pkg.Outer$Inner`
      names the bean `decapitalize("Outer.Inner")`. */
  lemma InferredFromNestedSupertype(pkg: string, outer: string, inner: string)
    requires '.' !in outer && '$' !in outer && '.' !in inner && '$' !in inner
    ensures DeduceBeanName("", pkg + "." + outer + "$" + inner) == Decapitalize(outer + "." + inner)
  {
    assert !HasText("");
    ShortNameOfNested(pkg, outer, inner);
  }

  /** Without an explicit value, a supertype in the default package names
      the bean after itself, decapitalized. */
  lemma InferredFromUnqualifiedSupertype(name: string)
    requires '.' !in name && '$' !in name
    ensures DeduceBeanName("", name) == Decapitalize(name)
  {
    assert !HasText("");
    ShortNameOfUnqualified(name);
  }

  lemma DecapitalizeTestService(name: string, bean: string)
    requires name == "TestService" && bean == "testService"
    ensures Decapitalize(name) == bean
  {
    assert IsUpper(name[0]) && !IsUpper(name[1]);
    assert bean == [ToLower(name[0])] + name[1..];
  }

  lemma DemoServiceInferred(superClassName: string, pkg: string, name: string)
    requires pkg == "io.github.xiejx618.replace.demo.service" && name == "TestService"
    requires superClassName == pkg + "." + name
    ensures DeduceBeanName("", superClassName) == "testService"
  {
    assert '.' !in name && '$' !in name;
    InferredFromSupertype(pkg, name);
    DecapitalizeTestService(name, "testService");
  }

  /** `TestServiceExt extends TestService` with a bare `@Replace` replaces the
      bean `testService`. */
  lemma TestServiceName(superClassName: string)
    requires superClassName == "io.github.xiejx618.replace.demo.service.TestService"
    ensures DeduceBeanName("", superClassName) == "testService"
  {
    assert superClassName == "io.github.xiejx618.replace.demo.service" + "." + "TestService";
    DemoServiceInferred(superClassName, "io.github.xiejx618.replace.demo.service", "TestService");
  }
}

=== FILE: hook.dfy ===
/** `postProcessBeforeInstantiation`: the container calls it for every bean
    just before instantiating it; on a registry hit it installs the
    replacement supplier on the bean's merged definition and marks the entry
    replaced. Also `unReplacedBean`, the post-startup audit of unused entries. */
module Hook {
  import opened Results
  import opened JavaLang
  import opened Reflection
  import opened BeanNames
  import opened Registry
  import opened Instantiation

  const SCOPED_PROXY_FACTORY_BEAN: TypeName := "org.springframework.aop.scope.ScopedProxyFactoryBean"

  /** The parts of a merged bean definition the hook reads or writes. */
  datatype BeanDefinition = BeanDefinition(
    beanClassName: Option<TypeName>,
    isAbstractBeanDefinition: bool,
    instanceSupplier: Option<Supplier>)

  /** The registry and the bean's definition after the hook; the hook itself
      always returns null, so the container goes on to instantiate the bean
      through the definition. */
  datatype HookResult = HookResult(registry: ReplaceMap, definition: BeanDefinition)

  predicate IsScopedProxyFactory(def: BeanDefinition) {
    def.beanClassName == Some(SCOPED_PROXY_FACTORY_BEAN)
  }

  /** The hook for bean `beanName` whose merged definition is `def`. */
  function PostProcessBeforeInstantiation(m: ReplaceMap, beanName: string, def: BeanDefinition): (r: Result<HookResult>)
    ensures LookupName(beanName) !in m ==> r == Ok(HookResult(m, def))
    ensures IsScopedProxyFactory(def) ==> r == Ok(HookResult(m, def))
    ensures r.Err? <==> LookupName(beanName) in m && !IsScopedProxyFactory(def) && !def.isAbstractBeanDefinition
    ensures r.Err? ==> r.error == NotAbstractBeanDefinition(beanName)
    ensures r.Ok? && LookupName(beanName) in m && !IsScopedProxyFactory(def) ==>
              var key := LookupName(beanName);
              && r.value.definition == def.(instanceSupplier := Some(SupplierFor(m[key])))
              && r.value.registry.Keys == m.Keys
              && r.value.registry[key] == m[key].(replaced := true)
              && forall k :: k in m && k != key ==> r.value.registry[k] == m[k]
  {
    var key := LookupName(beanName);
    if key !in m then Ok(HookResult(m, def))
    else if IsScopedProxyFactory(def) then Ok(HookResult(m, def))
    else if !def.isAbstractBeanDefinition then Err(NotAbstractBeanDefinition(beanName))
    else
      var info := m[key];
      Ok(HookResult(m[key := info.(replaced := true)], def.(instanceSupplier := Some(SupplierFor(info)))))
  }

  /** `unReplacedBean`: the names whose entry the hook never used. */
  function UnReplaced(m: ReplaceMap): (r: set<string>)
    ensures forall k :: k in r <==> k in m && !m[k].replaced
  {
    set k | k in m && !m[k].replaced
  }

  /** Right after the scan, from a registry whose entries are all unused,
      every registered name is in the audit. */
  lemma AuditAfterScan(m: ReplaceMap, cp: Classpath, h: Hierarchy, recs: seq<ClassMetadata>)
    requires ScanAll(m, cp, h, recs).Ok?
    requires UnReplaced(m) == m.Keys
    ensures var r := ScanAll(m, cp, h, recs).value;
            UnReplaced(r) == r.Keys
  {
    ScanAllFresh(m, cp, h, recs);
    var r := ScanAll(m, cp, h, recs).value;
    assert forall k :: k in m ==> !m[k].replaced by {
      forall k | k in m ensures !m[k].replaced { assert k in UnReplaced(m); }
    }
  }

  /** One request from the container: a bean name and its merged definition. */
  datatype Request = Request(beanName: string, definition: BeanDefinition)

  /** The hook applied to a run of requests, stopping at the first failure;
      only the registry is kept. */
  function RunHooks(m: ReplaceMap, reqs: seq<Request>): (r: Result<ReplaceMap>)
    ensures r.Ok? ==> r.value.Keys == m.Keys
    decreases |reqs|
  {
    if reqs == [] then Ok(m)
    else
      var before :- RunHooks(m, reqs[..|reqs| - 1]);
      var last := reqs[|reqs| - 1];
      var after :- PostProcessBeforeInstantiation(before, last.beanName, last.definition);
      Ok(after.registry)
  }

  /** Some request in the run looked `key` up and used it. */
  predicate Requested(reqs: seq<Request>, key: string) {
    exists i :: 0 <= i < |reqs| && LookupName(reqs[i].beanName) == key && !IsScopedProxyFactory(reqs[i].definition)
  }

  /** The audit after a run of requests is what it was before, less every
      name some request used. */
  lemma {:induction false} AuditAfterRequests(m: ReplaceMap, reqs: seq<Request>)
    requires RunHooks(m, reqs).Ok?
    ensures forall k :: k in UnReplaced(RunHooks(m, reqs).value) <==> k in UnReplaced(m) && !Requested(reqs, k)
    decreases |reqs|
  {
    if reqs != [] {
      var p := reqs[..|reqs| - 1];
      var last := reqs[|reqs| - 1];
      AuditAfterRequests(m, p);
      var before := RunHooks(m, p).value;
      HookUpdatesAudit(before, last.beanName, last.definition);
      forall k
        ensures Requested(reqs, k) <==> Requested(p, k) || (LookupName(last.beanName) == k && !IsScopedProxyFactory(last.definition))
      {
        if Requested(reqs, k) {
          var i :| 0 <= i < |reqs| && LookupName(reqs[i].beanName) == k && !IsScopedProxyFactory(reqs[i].definition);
          if i < |p| { assert p[i] == reqs[i]; }
        }
        if Requested(p, k) {
          var i :| 0 <= i < |p| && LookupName(p[i].beanName) == k && !IsScopedProxyFactory(p[i].definition);
          assert p[i] == reqs[i];
        }
      }
    }
  }

  /** The hook never changes what a name resolves to: same names, and each
      entry keeps its order, class and factory. */
  lemma HookKeepsResolution(m: ReplaceMap, beanName: string, def: BeanDefinition)
    requires PostProcessBeforeInstantiation(m, beanName, def).Ok?
    ensures var m' := PostProcessBeforeInstantiation(m, beanName, def).value.registry;
            && m'.Keys == m.Keys
            && (forall k :: k in m ==>
                  m'[k].order == m[k].order && m'[k].clazz == m[k].clazz && m'[k].factory == m[k].factory)
            && Refines(m, m')
  {
  }

  /** After a substitution the name leaves the audit, and nothing else
      changes in it; without one the audit is unchanged. */
  lemma HookUpdatesAudit(m: ReplaceMap, beanName: string, def: BeanDefinition)
    requires PostProcessBeforeInstantiation(m, beanName, def).Ok?
    ensures var m' := PostProcessBeforeInstantiation(m, beanName, def).value.registry;
            UnReplaced(m') == if LookupName(beanName) in m && !IsScopedProxyFactory(def)
                              then UnReplaced(m) - {LookupName(beanName)}
                              else UnReplaced(m)
  {
    var m' := PostProcessBeforeInstantiation(m, beanName, def).value.registry;
    if LookupName(beanName) in m && !IsScopedProxyFactory(def) {
      assert UnReplaced(m') == UnReplaced(m) - {LookupName(beanName)};
    }
  }

  /** The container may instantiate a bean more than once (prototypes): the
      second pass installs the same supplier and leaves the same registry. */
  lemma HookIdempotent(m: ReplaceMap, beanName: string, def: BeanDefinition)
    requires PostProcessBeforeInstantiation(m, beanName, def).Ok?
    ensures var once := PostProcessBeforeInstantiation(m, beanName, def).value;
            PostProcessBeforeInstantiation(once.registry, beanName, once.definition) == Ok(once)
  {
    var key := LookupName(beanName);
    var once := PostProcessBeforeInstantiation(m, beanName, def).value;
    if key in m && !IsScopedProxyFactory(def) {
      assert SupplierFor(once.registry[key]) == SupplierFor(m[key]);
      assert once.registry[key := once.registry[key].(replaced := true)] == once.registry;
    }
  }

  /** `helloService` registered from `HelloServiceExt` with order 0: the
      container's request for `helloService` installs constructor reflection
      on `HelloServiceExt` and marks the entry replaced. */
  lemma HelloServiceScenario(cp: Classpath, h: Hierarchy, def: BeanDefinition)
    requires def.isAbstractBeanDefinition && !IsScopedProxyFactory(def)
    ensures var ext := "io.github.xiejx618.replace.demo.ext.HelloServiceExt";
            var m := Register(map[], cp, h, "helloService", 0, ext, "");
            && m.Ok?
            && var r := PostProcessBeforeInstantiation(m.value, "helloService", def);
            && r.Ok?
            && r.value.definition.instanceSupplier == Some(ReflectConstructor(ext))
            && r.value.registry["helloService"].replaced
            && UnReplaced(r.value.registry) == {}
  {
    var ext := "io.github.xiejx618.replace.demo.ext.HelloServiceExt";
    assert !HasText("");
    var m := Register(map[], cp, h, "helloService", 0, ext, "").value;
    assert m == map["helloService" := ReplaceInfo(0, ext, None, false)];
    assert !IsScopedTarget("helloService");
    var r := PostProcessBeforeInstantiation(m, "helloService", def).value;
    assert UnReplaced(r.registry) == {};
  }
}

=== FILE: initializer.dfy ===
/** `ReplaceBeanInitializer`: the once-per-process gate, collecting the
    configured scan roots and factory names from every property source, and
    the startup sequence that fills the registry, lists it and installs the
    post-processor. */
module Initializer {
  import opened Results
  import opened JavaLang
  import opened Reflection
  import opened Registry
  import opened ScanPaths
  import opened Summary

  const PACKAGES: string := "replace.packages"
  const FACTORIES: string := "replace.factories"

  // ---------------------------------------------------------------------------
  // The TIMES gate

  /** The call that does the work: the second under a bootstrap context
      (the first sees no application configuration), the first otherwise. */
  function Threshold(bootstrap: bool): nat {
    if bootstrap then 2 else 1
  }

  /** `TIMES.incrementAndGet()` compared with the threshold: the new counter
      and whether this call proceeds. */
  datatype GateResult = GateResult(times: nat, proceeds: bool)

  function Gate(times: nat, bootstrap: bool): (g: GateResult)
    ensures g.times == times + 1
    ensures g.proceeds ==> times < Threshold(bootstrap) <= g.times
    ensures !g.proceeds ==> times + 1 != Threshold(bootstrap)
  {
    var t := times + 1;
    GateResult(t, t == Threshold(bootstrap))
  }

  /** How many of `n` successive calls, starting with the counter at
      `times`, proceed. */
  function Proceeding(times: nat, bootstrap: bool, n: nat): nat
    decreases n
  {
    if n == 0 then 0
    else (if Gate(times, bootstrap).proceeds then 1 else 0) + Proceeding(times + 1, bootstrap, n - 1)
  }

  /** Of any run of calls, exactly one proceeds when the run passes the
      threshold, and none otherwise. */
  lemma {:induction false} ProceedingCount(times: nat, bootstrap: bool, n: nat)
    ensures Proceeding(times, bootstrap, n)
         == (if times < Threshold(bootstrap) <= times + n then 1 else 0)
    decreases n
  {
    if n > 0 {
      ProceedingCount(times + 1, bootstrap, n - 1);
    }
  }

  /** From a fresh process: no call proceeds before the threshold, exactly
      one after, and a later context never repeats the work. */
  lemma OnlyOnce(bootstrap: bool, n: nat)
    ensures Proceeding(0, bootstrap, n) == (if n >= Threshold(bootstrap) then 1 else 0)
    ensures Proceeding(0, bootstrap, n) <= 1
  {
    ProceedingCount(0, bootstrap, n);
  }

  // ---------------------------------------------------------------------------
  // optimizeConfig

  /** A property value: a string, or anything else (ignored). */
  datatype PropertyValue = Text(text: string) | NonText

  type PropertySource = map<string, PropertyValue>

  /** The comma-separated entries `key` holds in one source. */
  function Entries(source: PropertySource, key: string): (r: set<string>)
    ensures key !in source || source[key].NonText? ==> r == {}
    ensures key in source && source[key].Text? ==> r == CommaDelimitedSet(source[key].text)
    ensures key in source && source[key].Text? && source[key].text != [] ==>
              forall x :: x in r <==> IsField(source[key].text, x)
  {
    if key in source && source[key].Text? then CommaDelimitedSet(source[key].text) else {}
  }

  /** The union of `key`'s entries over every source: unlike an ordinary
      property lookup, a lower-precedence source is not shadowed. */
  function Collect(sources: seq<PropertySource>, key: string): (r: set<string>)
    ensures forall x :: x in r <==> exists i :: 0 <= i < |sources| && x in Entries(sources[i], key)
  {
    if sources == [] then {}
    else
      var r := Entries(sources[0], key) + Collect(sources[1..], key);
      assert forall x :: (exists i :: 0 <= i < |sources| && x in Entries(sources[i], key))
                           ==> x in r by {
        forall x, i | 0 <= i < |sources| && x in Entries(sources[i], key)
          ensures x in r
        {
          if i > 0 {
            assert sources[1..][i - 1] == sources[i];
          }
        }
      }
      r
  }

  /** Every source contributes, whatever its precedence: the collected
      entries do not depend on the order of the sources. */
  lemma CollectOrderIrrelevant(a: seq<PropertySource>, b: seq<PropertySource>, key: string)
    ensures Collect(a + b, key) == Collect(b + a, key)
  {
    forall x | x in Collect(a + b, key)
      ensures x in Collect(b + a, key)
    {
      var i :| 0 <= i < |a + b| && x in Entries((a + b)[i], key);
      if i < |a| {
        assert (b + a)[|b| + i] == a[i];
      } else {
        assert (b + a)[i - |a|] == b[i - |a|];
      }
    }
    forall x | x in Collect(b + a, key)
      ensures x in Collect(a + b, key)
    {
      var i :| 0 <= i < |b + a| && x in Entries((b + a)[i], key);
      if i < |b| {
        assert (a + b)[|a| + i] == b[i];
      } else {
        assert (a + b)[i - |b|] == a[i - |b|];
      }
    }
  }

  /** `Config`: the reduced scan roots and the factory class names (their
      instantiation is not part of this model). */
  datatype Config = Config(packages: seq<string>, factories: set<string>)

  function OptimizeConfig(sources: seq<PropertySource>): (c: Config)
    ensures forall f :: f in c.factories <==> exists i :: 0 <= i < |sources| && f in Entries(sources[i], FACTORIES)
    ensures forall p :: p in c.packages ==> exists i :: 0 <= i < |sources| && p in Entries(sources[i], PACKAGES)
    ensures forall p :: p in Collect(sources, PACKAGES) ==> exists q :: q in c.packages && Under(p, q)
    ensures Collect(sources, PACKAGES) == {} <==> c.packages == []
  {
    var roots := Collect(sources, PACKAGES);
    forall p | p in roots
      ensures exists q :: q in Packages(roots) && Under(p, q)
    {
      PackagesCover(roots, p);
    }
    Config(Packages(roots), Collect(sources, FACTORIES))
  }

  // ---------------------------------------------------------------------------
  // registerFromScan

  /** A class the scan of `pkg` finds: one in that package or below it
      (the resource pattern `pkg/**/*.class`). */
  predicate InPackage(rec: ClassMetadata, pkg: string) {
    StartsWith(rec.className, pkg + ".")
  }

  /** The positions in the index of the classes under `root` (a trimmed
      scan root), in increasing order. */
  function PackageIndices(index: seq<ClassMetadata>, root: string): (idx: seq<nat>)
    ensures forall i: nat :: i in idx <==> i < |index| && InPackage(index[i], root)
    ensures forall a, b :: 0 <= a < b < |idx| ==> idx[a] < idx[b]
  {
    if index == [] then []
    else
      var n := |index| - 1;
      var prev := PackageIndices(index[..n], root);
      assert forall i :: 0 <= i < n ==> index[..n][i] == index[i];
      forall a | 0 <= a < |prev|
        ensures prev[a] < n
      {
        var i: nat := prev[a];
        assert i in prev;
      }
      prev + (if InPackage(index[n], root) then [n] else [])
  }

  /** The classes the scan of `root` (a trimmed scan root) finds: each
      indexed class in the package or below it, once per index entry and in
      index order. */
  function ClassesUnder(index: seq<ClassMetadata>, root: string): (r: seq<ClassMetadata>)
    ensures |r| == |PackageIndices(index, root)|
    ensures forall k :: 0 <= k < |r| ==>
              PackageIndices(index, root)[k] < |index| && r[k] == index[PackageIndices(index, root)[k]]
    ensures forall rec :: rec in r <==> rec in index && InPackage(rec, root)
  {
    if index == [] then []
    else
      var n := |index| - 1;
      var init := index[..n];
      var prev := ClassesUnder(init, root);
      var hit := InPackage(index[n], root);
      assert forall i :: 0 <= i < n ==> init[i] == index[i];
      assert index == init + [index[n]];
      assert PackageIndices(index, root) == PackageIndices(init, root) + (if hit then [n] else []);
      prev + (if hit then [index[n]] else [])
  }

  /** Whether the scan of some root finds `rec`. */
  predicate UnderSomeRoot(rec: ClassMetadata, packages: seq<string>) {
    exists pkg :: pkg in packages && InPackage(rec, Trim(pkg))
  }

  /** The classes in the order the scan visits them: root by root. */
  function ScanOrder(index: seq<ClassMetadata>, packages: seq<string>): (r: seq<ClassMetadata>)
    ensures forall rec :: rec in r <==> rec in index && UnderSomeRoot(rec, packages)
  {
    if packages == [] then []
    else
      assert forall pkg :: pkg in packages <==> pkg == packages[0] || pkg in packages[1..];
      ClassesUnder(index, Trim(packages[0])) + ScanOrder(index, packages[1..])
  }

  /** The scan is root by root: scanning `ps` then `qs` visits the classes
      of `ps` first, and each root contributes its classes as one block. */
  lemma {:induction false} ScanOrderAppend(index: seq<ClassMetadata>, ps: seq<string>, qs: seq<string>)
    ensures ScanOrder(index, ps + qs) == ScanOrder(index, ps) + ScanOrder(index, qs)
  {
    if ps == [] {
      assert ps + qs == qs;
    } else {
      assert (ps + qs)[1..] == ps[1..] + qs;
      ScanOrderAppend(index, ps[1..], qs);
    }
  }

  /** One root alone is scanned as exactly its own classes. */
  lemma ScanOrderOfOne(index: seq<ClassMetadata>, pkg: string)
    ensures ScanOrder(index, [pkg]) == ClassesUnder(index, Trim(pkg))
  {
    assert [pkg][1..] == [];
  }

  /** Scanning the reduced roots finds every class whose name has no blank
      or control character and that some configured root, trimmed, contains. */
  lemma ScanFindsEveryClass(index: seq<ClassMetadata>, roots: set<string>, rec: ClassMetadata, p: string)
    requires rec in index && p in roots && InPackage(rec, Trim(p))
    requires forall k :: 0 <= k < |rec.className| ==> !IsTrimmable(rec.className[k])
    ensures rec in ScanOrder(index, Packages(roots))
  {
    PackagesCoverClasses(roots, p, rec.className);
  }

  /** `registerFromScan`: nothing for no roots; otherwise every class found
      under each root, in turn, goes through the scan step. */
  function RegisterFromScan(m: ReplaceMap, cp: Classpath, h: Hierarchy, index: seq<ClassMetadata>,
                            packages: seq<string>): (r: Result<ReplaceMap>)
    ensures packages == [] ==> r == Ok(m)
    ensures r.Ok? ==> Refines(m, r.value)
    ensures r.Ok? ==> Covers(r.value, ScanOrder(index, packages))
    ensures r.Ok? ==> forall k :: k in r.value && k !in m ==>
              exists rec :: rec in ScanOrder(index, packages) && Targets(rec, k)
  {
    if packages == [] then Ok(m)
    else
      var recs := ScanOrder(index, packages);
      var r := ScanAll(m, cp, h, recs);
      if r.Ok? then
        ScanAllRefines(m, cp, h, recs);
        ScanAllCovers(m, cp, h, recs);
        ScanAllOrigin(m, cp, h, recs);
        r
      else r
  }

  // ---------------------------------------------------------------------------
  // initialize

  /** What persists across `initialize` calls in one process: the counter,
      the registry, the listing logged, and whether the post-processor was
      added to the bean factory. */
  datatype Startup = Startup(times: nat, registry: ReplaceMap, listing: Option<string>, installed: bool)

  /** `initialize` for one context: pass the gate, stop unless
      `replace.enabled`, scan the configured roots, list the registry
      (failing if it is empty), and install the post-processor. */
  function Initialize(st: Startup, bootstrap: bool, enabled: bool, sources: seq<PropertySource>,
                      index: seq<ClassMetadata>, cp: Classpath, h: Hierarchy): (r: Result<Startup>)
    ensures !Gate(st.times, bootstrap).proceeds || !enabled ==> r == Ok(st.(times := st.times + 1))
    ensures r.Ok? ==> r.value.times == st.times + 1
    ensures Gate(st.times, bootstrap).proceeds && enabled ==>
              var scan := RegisterFromScan(st.registry, cp, h, index, OptimizeConfig(sources).packages);
              && (r.Ok? <==> scan.Ok? && |scan.value| > 0)
              && (scan.Err? ==> r == Err(scan.error))
              && (scan.Ok? && |scan.value| == 0 ==> r == Err(EmptyReplaceMap))
              && (r.Ok? ==> r.value.registry == scan.value && r.value.installed
                            && r.value.listing == Some(ReplaceMapToString(scan.value, false).value))
  {
    var g := Gate(st.times, bootstrap);
    var st1 := st.(times := g.times);
    if !g.proceeds || !enabled then Ok(st1)
    else
      var config := OptimizeConfig(sources);
      var registry :- RegisterFromScan(st.registry, cp, h, index, config.packages);
      var listing :- ReplaceMapToString(registry, true);
      Ok(st1.(registry := registry, listing := Some(listing), installed := true))
  }
}

=== FILE: instantiation.dfy ===
/** The supplier `instanceSupplier` installs, and what calling it resolves:
    either the registered static method with its pre-computed arguments, or
    a public constructor of the replacement class with one argument per
    parameter chosen by an ordered first-match strategy. */
module Instantiation {
  import opened Results
  import opened Reflection
  import opened Registry

  /** The deferred construction installed on a bean definition. */
  datatype Supplier =
    | InvokeFactory(factory: FactoryMethod)
    | ReflectConstructor(className: TypeName)

  /** A replacement with a method invokes it; otherwise its class is
      constructed reflectively. */
  function SupplierFor(info: ReplaceInfo): (s: Supplier)
    ensures s.InvokeFactory? <==> info.factory.Some?
    ensures s.InvokeFactory? ==> s.factory == info.factory.value
    ensures s.ReflectConstructor? ==> s.className == info.clazz
  {
    match info.factory
    case Some(f) => InvokeFactory(f)
    case None => ReflectConstructor(info.clazz)
  }

  // ---------------------------------------------------------------------------
  // Constructor selection

  /** The positions of the public constructors, in increasing order. */
  function PublicIndices(ctors: seq<Constructor>): (idx: seq<nat>)
    ensures forall i: nat :: i in idx <==> i < |ctors| && ctors[i].isPublic
    ensures forall a, b :: 0 <= a < b < |idx| ==> idx[a] < idx[b]
  {
    if ctors == [] then []
    else
      var n := |ctors| - 1;
      var prev := PublicIndices(ctors[..n]);
      assert forall i :: 0 <= i < n ==> ctors[..n][i] == ctors[i];
      forall a | 0 <= a < |prev|
        ensures prev[a] < n
      {
        var i: nat := prev[a];
        assert i in prev;
      }
      prev + (if ctors[n].isPublic then [n] else [])
  }

  /** `getConstructors()`: the public constructors, each once per entry
      and in the order the class record lists them. */
  function PublicConstructors(ctors: seq<Constructor>): (r: seq<Constructor>)
    ensures |r| == |PublicIndices(ctors)|
    ensures forall k :: 0 <= k < |r| ==> PublicIndices(ctors)[k] < |ctors| && r[k] == ctors[PublicIndices(ctors)[k]]
    ensures forall c :: c in r <==> c in ctors && c.isPublic
  {
    if ctors == [] then []
    else
      var n := |ctors| - 1;
      var prev := PublicConstructors(ctors[..n]);
      assert forall i :: 0 <= i < n ==> ctors[..n][i] == ctors[i];
      prev + (if ctors[n].isPublic then [ctors[n]] else [])
  }

  /** The index of the first `@Autowired` constructor, if any. */
  function FirstAutowired(ctors: seq<Constructor>): (r: Option<nat>)
    ensures r.None? <==> forall i :: 0 <= i < |ctors| ==> !ctors[i].autowired
    ensures r.Some? ==> r.value < |ctors| && ctors[r.value].autowired
                        && forall j :: 0 <= j < r.value ==> !ctors[j].autowired
  {
    if ctors == [] then None
    else if ctors[0].autowired then Some(0)
    else match FirstAutowired(ctors[1..])
      case None => None
      case Some(i) => Some(i + 1)
  }

  /** The constructor used: none is an error; a single one is used whether
      or not it is annotated; among several, the first `@Autowired` one, and
      an error when none is annotated. */
  function SelectConstructor(className: TypeName, publics: seq<Constructor>): (r: Result<Constructor>)
    ensures r == Err(NoPublicConstructor(className)) <==> |publics| == 0
    ensures |publics| == 1 ==> r == Ok(publics[0])
    ensures r == Err(NoAutowiredConstructor(className))
            <==> |publics| > 1 && forall i :: 0 <= i < |publics| ==> !publics[i].autowired
    ensures r.Ok? && |publics| > 1 ==>
              exists i :: 0 <= i < |publics| && publics[i] == r.value && r.value.autowired
                          && forall j :: 0 <= j < i ==> !publics[j].autowired
    ensures |publics| > 1 && FirstAutowired(publics).Some? ==> r == Ok(publics[FirstAutowired(publics).value])
  {
    if |publics| == 0 then Err(NoPublicConstructor(className))
    else if |publics| == 1 then Ok(publics[0])
    else match FirstAutowired(publics)
      case None => Err(NoAutowiredConstructor(className))
      case Some(i) => Ok(publics[i])
  }

  /** Two constructors, neither annotated: the build fails. */
  lemma TwoPlainConstructorsFail(className: TypeName, a: Constructor, b: Constructor)
    requires !a.autowired && !b.autowired
    ensures SelectConstructor(className, [a, b]) == Err(NoAutowiredConstructor(className))
  {
  }

  /** Several `@Autowired` constructors are not rejected: the first wins. */
  lemma FirstOfSeveralAutowired(className: TypeName, publics: seq<Constructor>, i: nat, j: nat)
    requires i < j < |publics| && publics[i].autowired && publics[j].autowired
    requires forall k :: 0 <= k < i ==> !publics[k].autowired
    ensures SelectConstructor(className, publics) == Ok(publics[i])
  {
  }

  // ---------------------------------------------------------------------------
  // Parameter resolution

  /** How one constructor argument is obtained. */
  datatype ConstructorArg =
    | Container(capability: Capability)
    /** `@Value`: the expression after placeholder resolution, converted to the type. */
    | PropertyValue(expression: string, targetType: TypeName)
    /** `beanFactory.getBean(type)`. */
    | BeanOfType(typeName: TypeName)

  /** First match in the order context, bean factory, environment, `@Value`,
      bean lookup by type. */
  function ResolveParam(h: Hierarchy, p: Param): (a: ConstructorArg)
    ensures a.Container? <==> Whitelisted(h, p.typeName).Some?
    ensures a.Container? ==> Whitelisted(h, p.typeName) == Some(a.capability)
    ensures a.PropertyValue? <==> Whitelisted(h, p.typeName).None? && p.valueExpression.Some?
    ensures a.PropertyValue? ==> a.expression == p.valueExpression.value && a.targetType == p.typeName
    ensures a.BeanOfType? ==> a.typeName == p.typeName
  {
    match Whitelisted(h, p.typeName)
    case Some(c) => Container(c)
    case None =>
      match p.valueExpression
      case Some(e) => PropertyValue(e, p.typeName)
      case None => BeanOfType(p.typeName)
  }

  /** A whitelisted type wins over a `@Value` annotation: an `Object`
      parameter receives the application context whatever it is annotated
      with. */
  lemma ObjectParamGetsContext(h: Hierarchy, valueExpression: Option<string>)
    ensures ResolveParam(h, Param(OBJECT, valueExpression)) == Container(ApplicationContext)
  {
  }

  /** What calling the supplier amounts to. */
  datatype Invocation =
    | CallStatic(target: Method, args: seq<Capability>)
    | CallConstructor(className: TypeName, ctor: Constructor, ctorArgs: seq<ConstructorArg>)

  function ResolveParams(h: Hierarchy, params: seq<Param>): (r: seq<ConstructorArg>)
    ensures |r| == |params|
    ensures forall i :: 0 <= i < |params| ==> r[i] == ResolveParam(h, params[i])
  {
    seq(|params|, i requires 0 <= i < |params| => ResolveParam(h, params[i]))
  }

  /** Calling the installed supplier: a factory is invoked with its stored
      arguments; a class is loaded, a constructor selected, and one argument
      resolved per parameter. */
  function CallSupplier(cp: Classpath, h: Hierarchy, s: Supplier): (r: Result<Invocation>)
    ensures s.InvokeFactory? ==> r == Ok(CallStatic(s.factory.staticMethod, s.factory.args))
    ensures s.ReflectConstructor? && s.className !in cp ==> r == Err(ClassNotFound(s.className))
    ensures s.ReflectConstructor? && s.className in cp ==>
              var publics := PublicConstructors(cp[s.className].constructors);
              && (r.Err? <==> SelectConstructor(s.className, publics).Err?)
              && (r.Err? ==> r.error == SelectConstructor(s.className, publics).error)
              && (r.Ok? ==> r.value.CallConstructor?
                            && r.value.className == s.className
                            && r.value.ctor == SelectConstructor(s.className, publics).value
                            && |r.value.ctorArgs| == |r.value.ctor.params|
                            && (forall i :: 0 <= i < |r.value.ctorArgs| ==>
                                  r.value.ctorArgs[i] == ResolveParam(h, r.value.ctor.params[i]))
                            && r.value.ctor in cp[s.className].constructors && r.value.ctor.isPublic)
  {
    match s
    case InvokeFactory(f) => Ok(CallStatic(f.staticMethod, f.args))
    case ReflectConstructor(className) =>
      if className !in cp then Err(ClassNotFound(className))
      else
        var publics := PublicConstructors(cp[className].constructors);
        var ctor :- SelectConstructor(className, publics);
        assert ctor in publics;
        Ok(CallConstructor(className, ctor, ResolveParams(h, ctor.params)))
  }
}

=== FILE: java_lang.dfy ===
/** The slice of java.lang and Spring's StringUtils that the starter relies on:
    32-bit ints, `hasText`, `String.trim`, comma splitting and `Integer.toString`. */
module JavaLang {

  const INT_MIN: int := -0x8000_0000
  const INT_MAX: int := 0x7fff_ffff

  /** A Java `int`. */
  type Int32 = x: int | INT_MIN <= x <= INT_MAX

  /** `Character.isWhitespace`, restricted to the ASCII range. */
  predicate IsWhitespace(c: char) {
    c == ' ' || c == '\t' || c == '\n' || c == '\U{000B}' || c == '\U{000C}' || c == '\r'
    || ('\U{001C}' <= c <= '\U{001F}')
  }

  /** `StringUtils.hasText`: at least one non-whitespace character. */
  predicate HasText(s: string) {
    exists i :: 0 <= i < |s| && !IsWhitespace(s[i])
  }

  /** Text survives trimming only if it has text: `trim` cuts every
      whitespace character at the ends (and control characters besides),
      so what is left starts with a non-whitespace one. The converse fails:
      `"\0"` has text, since NUL is not whitespace, yet trims to empty. */
  lemma TrimmedHasText(s: string)
    ensures HasText(s) ==> s != []
    ensures Trim(s) != [] ==> HasText(s)
  {
    var u := TrimStart(s);
    var t := TrimEnd(u);
    if Trim(s) != [] {
      assert Trim(s) == t;
      var k := |s| - |u|;
      assert t[0] == u[0] == s[k];
      WhitespaceIsTrimmable(s[k]);
      assert 0 <= k < |s| && !IsWhitespace(s[k]);
    }
  }

  lemma WhitespaceIsTrimmable(c: char)
    ensures IsWhitespace(c) ==> IsTrimmable(c)
  {
  }

  /** Why `TrimmedHasText` holds one way only: NUL is not whitespace, so it
      is text, but `trim` cuts it. */
  lemma NulHasTextButTrimsAway()
    ensures HasText("\0") && Trim("\0") == []
  {
    assert !IsWhitespace("\0"[0]);
  }

  /** `String.startsWith`. */
  predicate StartsWith(s: string, prefix: string) {
    prefix <= s
  }

  // ---------------------------------------------------------------------------
  // String.trim: strips every character up to U+0020 at both ends.

  predicate IsTrimmable(c: char) {
    c <= ' '
  }

  function TrimStart(s: string): (r: string)
    ensures |r| <= |s| && r == s[|s| - |r|..]
    ensures forall i :: 0 <= i < |s| - |r| ==> IsTrimmable(s[i])
    ensures r == [] || !IsTrimmable(r[0])
  {
    if |s| > 0 && IsTrimmable(s[0]) then TrimStart(s[1..]) else s
  }

  function TrimEnd(s: string): (r: string)
    ensures |r| <= |s| && r == s[..|r|]
    ensures forall i :: |r| <= i < |s| ==> IsTrimmable(s[i])
    ensures r == [] || !IsTrimmable(r[|r| - 1])
  {
    if |s| > 0 && IsTrimmable(s[|s| - 1]) then TrimEnd(s[..|s| - 1]) else s
  }

  /** `String.trim`: the longest infix that neither starts nor ends with a
      control character or space, everything cut off being such characters. */
  function Trim(s: string): (r: string)
    ensures exists i, j :: 0 <= i <= j <= |s| && r == s[i..j]
              && (forall k :: 0 <= k < i ==> IsTrimmable(s[k]))
              && (forall k :: j <= k < |s| ==> IsTrimmable(s[k]))
    ensures r == [] || (!IsTrimmable(r[0]) && !IsTrimmable(r[|r| - 1]))
  {
    var t := TrimStart(s);
    var r := TrimEnd(t);
    assert r == s[|s| - |t|..|s| - |t| + |r|];
    r
  }

  /** Trimming cuts exactly the trimmable run at each end: a slice that
      starts and ends with a kept character, with only trimmable ones
      around it, is the trimmed text. */
  lemma TrimIs(s: string, i: nat, j: nat)
    requires i <= j <= |s|
    requires forall k :: 0 <= k < i ==> IsTrimmable(s[k])
    requires forall k :: j <= k < |s| ==> IsTrimmable(s[k])
    requires i < j ==> !IsTrimmable(s[i]) && !IsTrimmable(s[j - 1])
    ensures Trim(s) == s[i..j]
  {
    if i < j {
      TrimStartIs(s, i);
      TrimEndOfSuffix(s, i, j);
    } else {
      TrimStartIs(s, |s|);
    }
  }

  lemma TrimEndOfSuffix(s: string, i: nat, j: nat)
    requires i < j <= |s|
    requires forall k :: j <= k < |s| ==> IsTrimmable(s[k])
    requires !IsTrimmable(s[j - 1])
    ensures TrimEnd(s[i..]) == s[i..j]
  {
    var t := s[i..];
    assert forall k :: j - i <= k < |t| ==> t[k] == s[k + i];
    TrimEndIs(t, j - i);
    assert t[..j - i] == s[i..j];
  }

  lemma {:induction false} TrimStartIs(s: string, i: nat)
    requires i <= |s|
    requires forall k :: 0 <= k < i ==> IsTrimmable(s[k])
    requires i < |s| ==> !IsTrimmable(s[i])
    ensures TrimStart(s) == s[i..]
    decreases i
  {
    if i > 0 {
      var t := s[1..];
      assert forall k :: 0 <= k < i - 1 ==> t[k] == s[k + 1];
      assert i - 1 < |t| ==> t[i - 1] == s[i];
      TrimStartIs(t, i - 1);
      assert t[i - 1..] == s[i..];
    }
  }

  lemma {:induction false} TrimEndIs(s: string, j: nat)
    requires j <= |s|
    requires forall k :: j <= k < |s| ==> IsTrimmable(s[k])
    requires j > 0 ==> !IsTrimmable(s[j - 1])
    ensures TrimEnd(s) == s[..j]
    decreases |s| - j
  {
    if j < |s| {
      var t := s[..|s| - 1];
      assert forall k :: j <= k < |t| ==> t[k] == s[k];
      assert j > 0 ==> t[j - 1] == s[j - 1];
      TrimEndIs(t, j);
      assert t[..j] == s[..j];
    }
  }

  // ---------------------------------------------------------------------------
  // StringUtils.commaDelimitedListToSet

  /** The index of the first occurrence of `c` in `s`. */
  function IndexOf(s: string, c: char): (i: nat)
    requires c in s
    ensures i < |s| && s[i] == c && c !in s[..i]
  {
    if s[0] == c then 0 else 1 + IndexOf(s[1..], c)
  }

  /** The comma-separated fields of `s`, without trimming: `"a,,b"` has an
      empty middle field and `"a,"` an empty last one. */
  function Fields(s: string): (r: seq<string>)
    ensures |r| >= 1
    ensures forall i :: 0 <= i < |r| ==> ',' !in r[i]
    decreases |s|
  {
    if ',' !in s then [s]
    else
      var i := IndexOf(s, ',');
      [s[..i]] + Fields(s[i + 1..])
  }

  function JoinComma(fields: seq<string>): string
    requires |fields| >= 1
  {
    if |fields| == 1 then fields[0] else fields[0] + "," + JoinComma(fields[1..])
  }

  /** Splitting loses nothing: the fields joined by commas give the text back. */
  lemma {:induction false} JoinFields(s: string)
    ensures JoinComma(Fields(s)) == s
    decreases |s|
  {
    if ',' in s {
      var i := IndexOf(s, ',');
      var tail := Fields(s[i + 1..]);
      assert Fields(s) == [s[..i]] + tail;
      assert Fields(s)[1..] == tail;
      JoinFields(s[i + 1..]);
      assert JoinComma(Fields(s)) == s[..i] + "," + JoinComma(tail);
      assert s == s[..i] + "," + s[i + 1..];
    }
  }

  /** And fields free of commas are recovered from their join. */
  lemma {:induction false} FieldsOfJoin(fields: seq<string>)
    requires |fields| >= 1
    requires forall i :: 0 <= i < |fields| ==> ',' !in fields[i]
    ensures Fields(JoinComma(fields)) == fields
  {
    if |fields| > 1 {
      var s := JoinComma(fields);
      var rest := JoinComma(fields[1..]);
      assert s == fields[0] + "," + rest;
      assert s[|fields[0]|] == ',';
      assert s[..|fields[0]|] == fields[0];
      assert ',' in s;
      var i := IndexOf(s, ',');
      assert i == |fields[0]|;
      assert s[i + 1..] == rest;
      assert Fields(s) == [fields[0]] + Fields(rest);
      FieldsOfJoin(fields[1..]);
      assert fields == [fields[0]] + fields[1..];
    }
  }

  /** `f` is one of the comma-separated fields of `s`: a comma-free slice
      that runs from the start or a comma to the next comma or the end. */
  ghost predicate IsField(s: string, f: string) {
    exists i, j :: FieldAt(s, i, j) && f == s[i..j]
  }

  /** The slice `s[i..j]` is a field of `s`. */
  ghost predicate FieldAt(s: string, i: int, j: int) {
    0 <= i <= j <= |s| && ',' !in s[i..j]
    && (i == 0 || s[i - 1] == ',') && (j == |s| || s[j] == ',')
  }

  /** A text without commas is its only field. */
  lemma OnlyField(s: string, i: int, j: int)
    requires ',' !in s && FieldAt(s, i, j)
    ensures i == 0 && j == |s|
  {
    assert forall m :: 0 <= m < |s| ==> s[m] != ',';
  }

  /** A field of the text after the comma at `k` is a field of the whole. */
  lemma FieldAfterComma(s: string, k: nat, i: int, j: int)
    requires k < |s| && s[k] == ',' && FieldAt(s[k + 1..], i, j)
    ensures FieldAt(s, i + k + 1, j + k + 1) && s[i + k + 1..j + k + 1] == s[k + 1..][i..j]
  {
    var t := s[k + 1..];
    assert s[i + k + 1..j + k + 1] == t[i..j];
    assert i > 0 ==> s[i + k] == t[i - 1];
    assert j < |t| ==> s[j + k + 1] == t[j];
  }

  /** A field of the whole text that starts after the comma at `k` is a field
      of the rest. */
  lemma FieldBeyondComma(s: string, k: nat, i: int, j: int)
    requires k < |s| && s[k] == ',' && FieldAt(s, i, j) && i > k
    ensures FieldAt(s[k + 1..], i - k - 1, j - k - 1) && s[k + 1..][i - k - 1..j - k - 1] == s[i..j]
  {
    var t := s[k + 1..];
    assert t[i - k - 1..j - k - 1] == s[i..j];
    assert i - k - 1 > 0 ==> t[i - k - 2] == s[i - 1];
    assert j < |s| ==> t[j - k - 1] == s[j];
  }

  /** A field that starts at or before the first comma is the text before it. */
  lemma FieldBeforeComma(s: string, k: nat, i: int, j: int)
    requires k < |s| && s[k] == ',' && ',' !in s[..k] && FieldAt(s, i, j) && i <= k
    ensures i == 0 && j == k
  {
    assert forall m :: 0 <= m < k ==> s[..k][m] == s[m] != ',';
    assert forall m :: i <= m < j ==> s[i..j][m - i] == s[m] != ',';
  }

  /** The split produces exactly the fields of the text. */
  lemma {:induction false} FieldsAreFields(s: string)
    ensures forall f :: f in Fields(s) <==> IsField(s, f)
    decreases |s|
  {
    if ',' !in s {
      assert FieldAt(s, 0, |s|) && s[0..|s|] == s;
      forall f | IsField(s, f)
        ensures f == s
      {
        var i, j :| FieldAt(s, i, j) && f == s[i..j];
        OnlyField(s, i, j);
      }
    } else {
      var k := IndexOf(s, ',');
      var t := s[k + 1..];
      FieldsAreFields(t);
      assert Fields(s) == [s[..k]] + Fields(t);
      assert FieldAt(s, 0, k) && s[0..k] == s[..k];
      forall f | f in Fields(t)
        ensures IsField(s, f)
      {
        var i, j :| FieldAt(t, i, j) && f == t[i..j];
        FieldAfterComma(s, k, i, j);
      }
      forall f | IsField(s, f)
        ensures f in Fields(s)
      {
        var i, j :| FieldAt(s, i, j) && f == s[i..j];
        if i <= k {
          FieldBeforeComma(s, k, i, j);
        } else {
          FieldBeyondComma(s, k, i, j);
        }
      }
    }
  }

  /** `commaDelimitedListToSet`: an empty text has no entries at all; any
      other text has exactly its comma-separated fields as entries, blanks
      and empty fields included. */
  function CommaDelimitedSet(s: string): (r: set<string>)
    ensures s == [] ==> r == {}
    ensures s != [] ==> forall f :: f in r <==> IsField(s, f)
    ensures forall f :: f in r ==> ',' !in f
  {
    FieldsAreFields(s);
    if s == [] then {} else set f | f in Fields(s)
  }

  /** Joining comma-free entries with commas and reading them back as a set
      gives exactly those entries, unless the only entry is empty. */
  lemma CommaDelimitedSetOfJoin(fields: seq<string>)
    requires |fields| >= 1 && fields != [""]
    requires forall i :: 0 <= i < |fields| ==> ',' !in fields[i]
    ensures CommaDelimitedSet(JoinComma(fields)) == set f | f in fields
  {
    FieldsOfJoin(fields);
  }

  // ---------------------------------------------------------------------------
  // Integer.toString

  predicate IsDigit(c: char) {
    '0' <= c <= '9'
  }

  function DigitChar(d: nat): (c: char)
    requires d < 10
    ensures IsDigit(c) && c as int - '0' as int == d
  {
    ('0' as int + d) as char
  }

  /** Decimal digits of `n`, no leading zero. */
  function NatToString(n: nat): (s: string)
    ensures |s| >= 1 && (forall i :: 0 <= i < |s| ==> IsDigit(s[i]))
    ensures s[0] == '0' ==> n == 0
  {
    if n < 10 then [DigitChar(n)] else NatToString(n / 10) + [DigitChar(n % 10)]
  }

  /** `Integer.toString`: a minus sign before the digits of a negative value. */
  function IntToString(n: int): (s: string)
    ensures |s| >= 1
    ensures n < 0 <==> s[0] == '-'
    ensures forall i :: (if n < 0 then 1 else 0) <= i < |s| ==> IsDigit(s[i])
    ensures |s| > 1 && s[0] != '-' ==> s[0] != '0'
    ensures n < 0 ==> |s| > 1 && s[1] != '0'
  {
    if n < 0 then "-" + NatToString(-n) else NatToString(n)
  }

  function DigitsValue(s: string): nat
    requires forall i :: 0 <= i < |s| ==> IsDigit(s[i])
  {
    if s == [] then 0
    else
      assert IsDigit(s[|s| - 1]);
      DigitsValue(s[..|s| - 1]) * 10 + (s[|s| - 1] as int - '0' as int)
  }

  /** Reads back what `IntToString` writes (`Integer.parseInt`). */
  function ParseInt(s: string): int
    requires |s| >= 1
    requires s[0] == '-' ==> forall i :: 1 <= i < |s| ==> IsDigit(s[i])
    requires s[0] != '-' ==> forall i :: 0 <= i < |s| ==> IsDigit(s[i])
  {
    if s[0] == '-' then 0 - DigitsValue(s[1..]) as int else DigitsValue(s)
  }

  lemma {:induction false} NatToStringValue(n: nat)
    ensures DigitsValue(NatToString(n)) == n
  {
    if n >= 10 {
      NatToStringValue(n / 10);
      var s := NatToString(n);
      assert s[..|s| - 1] == NatToString(n / 10);
    }
  }

  /** The printed order of a registry entry determines the order. */
  lemma IntToStringRoundTrip(n: int)
    ensures ParseInt(IntToString(n)) == n
  {
    if n < 0 {
      NatToStringValue(-n);
      assert IntToString(n)[1..] == NatToString(-n);
    } else {
      NatToStringValue(n);
    }
  }
}

=== FILE: reflection.dfy ===
/** What the starter reads from reflection, as plain descriptors: classes with
    their declared methods and constructors, parameters with their declared
    type and optional `@Value` expression, and an abstract subtype relation. */
module Reflection {
  import opened Results

  type TypeName = string

  const OBJECT: TypeName := "java.lang.Object"
  const CONFIGURABLE_APPLICATION_CONTEXT: TypeName :=
    "org.springframework.context.ConfigurableApplicationContext"
  const CONFIGURABLE_LISTABLE_BEAN_FACTORY: TypeName :=
    "org.springframework.beans.factory.config.ConfigurableListableBeanFactory"
  const CONFIGURABLE_ENVIRONMENT: TypeName :=
    "org.springframework.core.env.ConfigurableEnvironment"

  /** For each type, the set of all its proper supertypes (classes and
      interfaces, transitively). */
  type Hierarchy = map<TypeName, set<TypeName>>

  /** `target.isAssignableFrom(source)` for reference types: the same type,
      `Object`, or a declared supertype. */
  predicate IsAssignableFrom(h: Hierarchy, target: TypeName, source: TypeName) {
    target == source || target == OBJECT || (source in h && target in h[source])
  }

  /** A method or constructor parameter: declared type and the expression of
      its `@Value` annotation, if any. */
  datatype Param = Param(typeName: TypeName, valueExpression: Option<string>)

  datatype Method = Method(name: string, isStatic: bool, isPublic: bool, params: seq<Param>)

  datatype Constructor = Constructor(isPublic: bool, autowired: bool, params: seq<Param>)

  /** A loaded class: `getDeclaredMethods()` and all declared constructors,
      in reflection order. */
  datatype ClassInfo = ClassInfo(declaredMethods: seq<Method>, constructors: seq<Constructor>)

  /** What `Class.forName` can load. */
  type Classpath = map<TypeName, ClassInfo>

  /** The three container objects a parameter may receive by type. */
  datatype Capability = ApplicationContext | BeanFactory | Environment {
    function TypeName(): TypeName {
      match this
      case ApplicationContext => CONFIGURABLE_APPLICATION_CONTEXT
      case BeanFactory => CONFIGURABLE_LISTABLE_BEAN_FACTORY
      case Environment => CONFIGURABLE_ENVIRONMENT
    }
  }

  /** The first container object, in the order context, bean factory,
      environment, whose type the parameter type can hold. Both the
      factory-method arguments and the constructor arguments use it. */
  function Whitelisted(h: Hierarchy, paramType: TypeName): (r: Option<Capability>)
    ensures r.Some? ==> IsAssignableFrom(h, paramType, r.value.TypeName())
    ensures r.None? <==> forall c: Capability :: !IsAssignableFrom(h, paramType, c.TypeName())
    ensures r == Some(BeanFactory) ==> !IsAssignableFrom(h, paramType, CONFIGURABLE_APPLICATION_CONTEXT)
    ensures r == Some(Environment) ==>
              !IsAssignableFrom(h, paramType, CONFIGURABLE_APPLICATION_CONTEXT)
              && !IsAssignableFrom(h, paramType, CONFIGURABLE_LISTABLE_BEAN_FACTORY)
  {
    if IsAssignableFrom(h, paramType, CONFIGURABLE_APPLICATION_CONTEXT) then Some(ApplicationContext)
    else if IsAssignableFrom(h, paramType, CONFIGURABLE_LISTABLE_BEAN_FACTORY) then Some(BeanFactory)
    else if IsAssignableFrom(h, paramType, CONFIGURABLE_ENVIRONMENT) then Some(Environment)
    else None
  }

  /** A parameter declared as `Object` can hold anything, so the first rule,
      the application context, always takes it. */
  lemma ObjectParameterGetsContext(h: Hierarchy)
    ensures Whitelisted(h, OBJECT) == Some(ApplicationContext)
  {
  }
}

=== FILE: registry.dfy ===
/** The replacement registry (`replaceMap`) and how a class scan fills it:
    one step per scanned class, a left fold over the scan, and the facts
    that make the fold predictable (smallest order wins, first seen wins a
    tie, nothing is ever removed, a second scan changes nothing). */
module Registry {
  import opened Results
  import opened JavaLang
  import opened Reflection
  import opened ReplaceAnnotation
  import opened BeanNames

  /** A resolved static instantiation method and its pre-computed arguments. */
  datatype FactoryMethod = FactoryMethod(staticMethod: Method, args: seq<Capability>)

  /** `ReplaceInfo`: the winning replacement for one bean name. `factory` is
      None for constructor reflection (the source's null method and args). */
  datatype ReplaceInfo = ReplaceInfo(order: Order, clazz: TypeName, factory: Option<FactoryMethod>, replaced: bool)

  /** `replaceMap`, keyed by bean name. */
  type ReplaceMap = map<string, ReplaceInfo>

  /** One class found by the scan: its name, its superclass name (None for
      an interface) and its `@Replace` attributes if it carries one. */
  datatype ClassMetadata = ClassMetadata(className: TypeName, superClassName: Option<TypeName>, replace: Option<Replace>)

  // ---------------------------------------------------------------------------
  // findUniqueStaticMethod

  /** A declared method the lookup accepts: static with the given name,
      whatever its visibility (a private one is made accessible). */
  predicate IsCandidate(m: Method, name: string) {
    m.isStatic && m.name == name
  }

  /** The candidates among `methods`, in declaration order. */
  function StaticNamed(methods: seq<Method>, name: string): (r: seq<Method>)
    ensures forall m :: m in r ==> m in methods && IsCandidate(m, name)
  {
    if methods == [] then []
    else if IsCandidate(methods[0], name) then [methods[0]] + StaticNamed(methods[1..], name)
    else StaticNamed(methods[1..], name)
  }

  /** How many candidates the filter keeps, in terms of declaration indices. */
  lemma {:induction false} StaticNamedCount(methods: seq<Method>, name: string)
    ensures var r := StaticNamed(methods, name);
            && (|r| == 0 <==> forall i :: 0 <= i < |methods| ==> !IsCandidate(methods[i], name))
            && (|r| >= 2 <==> exists i, j :: 0 <= i < j < |methods| && IsCandidate(methods[i], name) && IsCandidate(methods[j], name))
            && (|r| == 1 ==> exists i :: 0 <= i < |methods| && methods[i] == r[0]
                                && forall j :: 0 <= j < |methods| && IsCandidate(methods[j], name) ==> j == i)
  {
    if methods != [] {
      StaticNamedCount(methods[1..], name);
      if IsCandidate(methods[0], name) {
        CountCandidateHead(methods, name);
      } else {
        CountOtherHead(methods, name);
      }
    }
  }

  ghost predicate CountFacts(methods: seq<Method>, name: string) {
    var r := StaticNamed(methods, name);
    && (|r| == 0 <==> forall i :: 0 <= i < |methods| ==> !IsCandidate(methods[i], name))
    && (|r| >= 2 <==> exists i, j :: 0 <= i < j < |methods| && IsCandidate(methods[i], name) && IsCandidate(methods[j], name))
    && (|r| == 1 ==> exists i :: 0 <= i < |methods| && methods[i] == r[0]
                        && forall j :: 0 <= j < |methods| && IsCandidate(methods[j], name) ==> j == i)
  }

  lemma CountCandidateHead(methods: seq<Method>, name: string)
    requires methods != [] && IsCandidate(methods[0], name) && CountFacts(methods[1..], name)
    ensures CountFacts(methods, name)
  {
    var tail := methods[1..];
    var rest := StaticNamed(tail, name);
    assert forall i :: 0 <= i < |tail| ==> tail[i] == methods[i + 1];
    if |rest| == 1 {
      var i :| 0 <= i < |tail| && tail[i] == rest[0];
      assert IsCandidate(methods[i + 1], name);
    } else if |rest| >= 2 {
      var i, j :| 0 <= i < j < |tail| && IsCandidate(tail[i], name) && IsCandidate(tail[j], name);
      assert IsCandidate(methods[i + 1], name);
    }
  }

  lemma CountOtherHead(methods: seq<Method>, name: string)
    requires methods != [] && !IsCandidate(methods[0], name) && CountFacts(methods[1..], name)
    ensures CountFacts(methods, name)
  {
    var tail := methods[1..];
    assert StaticNamed(methods, name) == StaticNamed(tail, name);
    assert forall i :: 0 <= i < |tail| ==> tail[i] == methods[i + 1];
    OtherHeadTwo(methods, name);
    OtherHeadOne(methods, name);
  }

  lemma OtherHeadTwo(methods: seq<Method>, name: string)
    requires methods != [] && !IsCandidate(methods[0], name)
    requires var tail := methods[1..];
             |StaticNamed(tail, name)| >= 2 <==>
               exists i, j :: 0 <= i < j < |tail| && IsCandidate(tail[i], name) && IsCandidate(tail[j], name)
    ensures |StaticNamed(methods, name)| >= 2 <==>
              exists i, j :: 0 <= i < j < |methods| && IsCandidate(methods[i], name) && IsCandidate(methods[j], name)
  {
    var tail := methods[1..];
    var rest := StaticNamed(tail, name);
    assert StaticNamed(methods, name) == rest;
    if |rest| >= 2 {
      var i, j :| 0 <= i < j < |tail| && IsCandidate(tail[i], name) && IsCandidate(tail[j], name);
      assert tail[i] == methods[i + 1] && tail[j] == methods[j + 1];
    }
    if exists i, j :: 0 <= i < j < |methods| && IsCandidate(methods[i], name) && IsCandidate(methods[j], name) {
      var i, j :| 0 <= i < j < |methods| && IsCandidate(methods[i], name) && IsCandidate(methods[j], name);
      assert tail[i - 1] == methods[i] && tail[j - 1] == methods[j];
    }
  }

  lemma OtherHeadOne(methods: seq<Method>, name: string)
    requires methods != [] && !IsCandidate(methods[0], name)
    requires var tail := methods[1..];
             var r := StaticNamed(tail, name);
             |r| == 1 ==> exists i :: 0 <= i < |tail| && tail[i] == r[0]
                            && forall j :: 0 <= j < |tail| && IsCandidate(tail[j], name) ==> j == i
    ensures var r := StaticNamed(methods, name);
            |r| == 1 ==> exists i :: 0 <= i < |methods| && methods[i] == r[0]
                           && forall j :: 0 <= j < |methods| && IsCandidate(methods[j], name) ==> j == i
  {
    var tail := methods[1..];
    var rest := StaticNamed(tail, name);
    assert StaticNamed(methods, name) == rest;
    if |rest| == 1 {
      var i :| 0 <= i < |tail| && tail[i] == rest[0]
               && forall j :: 0 <= j < |tail| && IsCandidate(tail[j], name) ==> j == i;
      assert methods[i + 1] == rest[0];
      forall j | 1 <= j < |methods| && IsCandidate(methods[j], name)
        ensures j == i + 1
      {
        assert tail[j - 1] == methods[j];
      }
    }
  }

  /** `findUniqueStaticMethod`: the one static method of that name among the
      declared methods; none is NoSuchMethodException, two or more is
      IllegalArgumentException. */
  function FindUniqueStaticMethod(cls: ClassInfo, className: TypeName, name: string): (r: Result<Method>)
    ensures r == Err(NoSuchStaticMethod(className, name))
            <==> forall i :: 0 <= i < |cls.declaredMethods| ==> !IsCandidate(cls.declaredMethods[i], name)
    ensures r == Err(AmbiguousStaticMethod(className, name))
            <==> exists i, j :: 0 <= i < j < |cls.declaredMethods|
                   && IsCandidate(cls.declaredMethods[i], name) && IsCandidate(cls.declaredMethods[j], name)
    ensures r.Ok? ==> IsCandidate(r.value, name)
                      && exists i :: 0 <= i < |cls.declaredMethods| && cls.declaredMethods[i] == r.value
                           && forall j :: 0 <= j < |cls.declaredMethods| && IsCandidate(cls.declaredMethods[j], name) ==> j == i
    ensures (exists i :: 0 <= i < |cls.declaredMethods| && IsCandidate(cls.declaredMethods[i], name)
                         && forall j :: 0 <= j < |cls.declaredMethods| && IsCandidate(cls.declaredMethods[j], name) ==> j == i)
            ==> r.Ok?
  {
    StaticNamedCount(cls.declaredMethods, name);
    var found := StaticNamed(cls.declaredMethods, name);
    if |found| == 0 then Err(NoSuchStaticMethod(className, name))
    else if |found| > 1 then Err(AmbiguousStaticMethod(className, name))
    else
      assert found[0] in found;
      Ok(found[0])
  }

  // ---------------------------------------------------------------------------
  // register

  /** The index of the first parameter no container object fits, or the
      parameter count when all fit. */
  function FirstUnsupported(h: Hierarchy, params: seq<Param>): (k: nat)
    ensures k <= |params|
    ensures forall j :: 0 <= j < k ==> Whitelisted(h, params[j].typeName).Some?
    ensures k < |params| ==> Whitelisted(h, params[k].typeName).None?
  {
    if params == [] then 0
    else
      var fits := Whitelisted(h, params[0].typeName);
      if fits.None? then 0
      else
        var rest := params[1..];
        var k := FirstUnsupported(h, rest);
        assert forall j :: 0 < j < |params| ==> params[j] == rest[j - 1];
        1 + k
  }

  /** The arguments of a static instantiation method, parameter by parameter:
      the whitelisted container object, or IllegalArgumentException naming
      the first parameter that takes none of them. */
  function FactoryArgs(h: Hierarchy, params: seq<Param>, className: TypeName, methodName: string): (r: Result<seq<Capability>>)
    ensures r.Ok? <==> FirstUnsupported(h, params) == |params|
    ensures r.Ok? ==> |r.value| == |params|
                      && forall i :: 0 <= i < |params| ==> Whitelisted(h, params[i].typeName) == Some(r.value[i])
    ensures r.Err? ==> r.error == UnsupportedParameter(className, methodName, params[FirstUnsupported(h, params)].typeName)
  {
    if params == [] then Ok([])
    else
      match Whitelisted(h, params[0].typeName)
      case None => Err(UnsupportedParameter(className, methodName, params[0].typeName))
      case Some(c) =>
        var tail := params[1..];
        var rest := FactoryArgs(h, tail, className, methodName);
        assert FirstUnsupported(h, params) == 1 + FirstUnsupported(h, tail);
        if rest.Err? then Err(rest.error)
        else
          assert forall i :: 0 < i < |params| ==> params[i] == tail[i - 1];
          Ok([c] + rest.value)
  }

  /** `m` after `put(beanName, ...)`: the one entry is new (its `replaced`
      flag cleared), every other entry is as before. */
  predicate PutOnly(m: ReplaceMap, m': ReplaceMap, beanName: string, order: Order, className: TypeName) {
    && m'.Keys == m.Keys + {beanName}
    && m'[beanName].order == order
    && m'[beanName].clazz == className
    && !m'[beanName].replaced
    && forall k :: k in m && k != beanName ==> m'[k] == m[k]
  }

  /** `register`: a blank method name stores a constructor-reflection entry;
      otherwise the class must load, the static method must be unique and
      every parameter whitelisted before the entry is stored. */
  function Register(m: ReplaceMap, cp: Classpath, h: Hierarchy, beanName: string, order: Order,
                    className: TypeName, methodName: string): (r: Result<ReplaceMap>)
    ensures !HasText(methodName) ==> r.Ok? && beanName in r.value && r.value[beanName].factory.None?
    ensures HasText(methodName) && className !in cp ==> r == Err(ClassNotFound(className))
    ensures r.Ok? ==> PutOnly(m, r.value, beanName, order, className)
    ensures r.Ok? && HasText(methodName) ==>
              && className in cp
              && r.value[beanName].factory.Some?
              && var f := r.value[beanName].factory.value;
              && FindUniqueStaticMethod(cp[className], className, methodName) == Ok(f.staticMethod)
              && |f.args| == |f.staticMethod.params|
              && forall i :: 0 <= i < |f.args| ==> Whitelisted(h, f.staticMethod.params[i].typeName) == Some(f.args[i])
    ensures HasText(methodName) && className in cp ==>
              var found := FindUniqueStaticMethod(cp[className], className, methodName);
              && (found.Err? ==> r == Err(found.error))
              && (found.Ok? && FactoryArgs(h, found.value.params, className, methodName).Err? ==>
                    r == Err(UnsupportedParameter(className, methodName,
                                                  found.value.params[FirstUnsupported(h, found.value.params)].typeName)))
    ensures HasText(methodName) && className in cp ==>
              var found := FindUniqueStaticMethod(cp[className], className, methodName);
              found.Ok? && FactoryArgs(h, found.value.params, className, methodName).Ok? ==> r.Ok?
  {
    if !HasText(methodName) then
      Ok(m[beanName := ReplaceInfo(order, className, None, false)])
    else if className !in cp then
      Err(ClassNotFound(className))
    else
      var found :- FindUniqueStaticMethod(cp[className], className, methodName);
      var args :- FactoryArgs(h, found.params, className, methodName);
      Ok(m[beanName := ReplaceInfo(order, className, Some(FactoryMethod(found, args)), false)])
  }

  /** `BeanServiceExt`: a private, parameterless static `instantiate` is
      found, and stored with no arguments, even next to an instance
      overload of the same name. */
  lemma PrivateFactoryAccepted(m: ReplaceMap, cp: Classpath, h: Hierarchy, beanName: string, order: Order,
                               className: TypeName, methodName: string, inst: Method, other: Method)
    requires methodName == "instantiate"
    requires inst == Method(methodName, true, false, [])
    requires other == Method(methodName, false, true, [Param(OBJECT, None)])
    requires className in cp && cp[className].declaredMethods == [other, inst]
    ensures Register(m, cp, h, beanName, order, className, methodName)
         == Ok(m[beanName := ReplaceInfo(order, className, Some(FactoryMethod(inst, [])), false)])
  {
    assert !IsWhitespace(methodName[0]);
    PrivateFactoryFound(cp[className], className, methodName, inst, other);
    assert FactoryArgs(h, inst.params, className, methodName) == Ok([]);
  }

  lemma PrivateFactoryFound(cls: ClassInfo, className: TypeName, methodName: string, inst: Method, other: Method)
    requires inst == Method(methodName, true, false, [])
    requires other == Method(methodName, false, true, [Param(OBJECT, None)])
    requires cls.declaredMethods == [other, inst]
    ensures FindUniqueStaticMethod(cls, className, methodName) == Ok(inst)
  {
    var methods := cls.declaredMethods;
    assert !IsCandidate(methods[0], methodName) && IsCandidate(methods[1], methodName);
    UniqueCandidateFound(cls, className, methodName, 1);
  }

  /** The lookup returns the one static method of that name when there is
      exactly one, whatever else the class declares. */
  lemma UniqueCandidateFound(cls: ClassInfo, className: TypeName, name: string, i: nat)
    requires i < |cls.declaredMethods| && IsCandidate(cls.declaredMethods[i], name)
    requires forall j :: 0 <= j < |cls.declaredMethods| && IsCandidate(cls.declaredMethods[j], name) ==> j == i
    ensures FindUniqueStaticMethod(cls, className, name) == Ok(cls.declaredMethods[i])
  {
    var r := FindUniqueStaticMethod(cls, className, name);
    var k :| 0 <= k < |cls.declaredMethods| && cls.declaredMethods[k] == r.value
             && forall j :: 0 <= j < |cls.declaredMethods| && IsCandidate(cls.declaredMethods[j], name) ==> j == k;
  }

  // ---------------------------------------------------------------------------
  // registerFromScan, one class at a time

  predicate HasSuperclass(rec: ClassMetadata) {
    rec.superClassName.Some? && HasText(rec.superClassName.value)
  }

  /** The bean name a `@Replace` class with a superclass targets. */
  function TargetName(rec: ClassMetadata): string
    requires rec.replace.Some? && HasSuperclass(rec)
  {
    DeduceBeanName(rec.replace.value.value, rec.superClassName.value)
  }

  predicate Targets(rec: ClassMetadata, name: string) {
    rec.replace.Some? && HasSuperclass(rec) && TargetName(rec) == name
  }

  function OrderOf(rec: ClassMetadata): Order
    requires rec.replace.Some?
  {
    rec.replace.value.order
  }

  /** The names a scanned class can add or change: at most its target. */
  function Touched(rec: ClassMetadata): (s: set<string>)
    ensures forall n :: n in s <==> Targets(rec, n)
  {
    if rec.replace.Some? && HasSuperclass(rec) then {TargetName(rec)} else {}
  }

  /** Processing one scanned class: classes without `@Replace` are skipped;
      a `@Replace` class without a superclass fails (before its name is even
      looked at); a candidate whose order is not strictly smaller than the
      stored one is skipped without resolving anything; otherwise it is
      registered. */
  function ScanOne(m: ReplaceMap, cp: Classpath, h: Hierarchy, rec: ClassMetadata): (r: Result<ReplaceMap>)
    ensures rec.replace.None? ==> r == Ok(m)
    ensures rec.replace.Some? && !HasSuperclass(rec) ==> r == Err(NoSuperclass(rec.className))
    ensures forall n :: Targets(rec, n) && n in m && OrderOf(rec) >= m[n].order ==> r == Ok(m)
    ensures r.Ok? ==>
              && r.value.Keys == m.Keys + Touched(rec)
              && (forall k :: k in m && k !in Touched(rec) ==> r.value[k] == m[k])
              && (forall n :: Targets(rec, n) ==> r.value[n].order <= OrderOf(rec))
              && (forall n :: Targets(rec, n) && n in m ==> r.value[n].order <= m[n].order)
    ensures rec.replace.Some? && HasSuperclass(rec)
            && (TargetName(rec) !in m || OrderOf(rec) < m[TargetName(rec)].order) ==>
              r == Register(m, cp, h, TargetName(rec), OrderOf(rec), rec.className, rec.replace.value.instantiateMethod)
    ensures r.Ok? ==> forall n :: Targets(rec, n) && (n !in m || OrderOf(rec) < m[n].order) ==>
              r.value[n].order == OrderOf(rec) && r.value[n].clazz == rec.className && !r.value[n].replaced
  {
    if rec.replace.None? then Ok(m)
    else if !HasSuperclass(rec) then Err(NoSuperclass(rec.className))
    else
      var beanName := TargetName(rec);
      var order := OrderOf(rec);
      if beanName in m && order >= m[beanName].order then Ok(m)
      else Register(m, cp, h, beanName, order, rec.className, rec.replace.value.instantiateMethod)
  }

  /** The scan as a left fold: classes in scan order, stopping at the first
      exception. */
  function ScanAll(m: ReplaceMap, cp: Classpath, h: Hierarchy, recs: seq<ClassMetadata>): (r: Result<ReplaceMap>)
    ensures recs == [] ==> r == Ok(m)
    ensures r.Err? ==> exists i :: 0 <= i < |recs| && ScanAll(m, cp, h, recs[..i]).Ok?
                                   && ScanOne(ScanAll(m, cp, h, recs[..i]).value, cp, h, recs[i]) == r
    decreases |recs|
  {
    if recs == [] then Ok(m)
    else
      var p := recs[..|recs| - 1];
      assert forall i :: 0 <= i < |p| ==> p[..i] == recs[..i] && p[i] == recs[i];
      var before :- ScanAll(m, cp, h, p);
      ScanOne(before, cp, h, recs[|recs| - 1])
  }

  // ---------------------------------------------------------------------------
  // Facts about the fold

  /** The registry only grows and stored orders only fall. */
  predicate Refines(m: ReplaceMap, m': ReplaceMap) {
    m.Keys <= m'.Keys && forall k :: k in m ==> m'[k].order <= m[k].order
  }

  lemma ScanAllSnoc(m: ReplaceMap, cp: Classpath, h: Hierarchy, recs: seq<ClassMetadata>, rec: ClassMetadata)
    ensures ScanAll(m, cp, h, recs + [rec])
         == (if ScanAll(m, cp, h, recs).Err? then ScanAll(m, cp, h, recs)
             else ScanOne(ScanAll(m, cp, h, recs).value, cp, h, rec))
  {
    assert (recs + [rec])[..|recs|] == recs;
  }

  /** Registered names are never removed and a name's order never rises. */
  lemma {:induction false} ScanAllRefines(m: ReplaceMap, cp: Classpath, h: Hierarchy, recs: seq<ClassMetadata>)
    requires ScanAll(m, cp, h, recs).Ok?
    ensures Refines(m, ScanAll(m, cp, h, recs).value)
    decreases |recs|
  {
    if recs != [] {
      ScanAllRefines(m, cp, h, recs[..|recs| - 1]);
    }
  }

  /** Entries for names no scanned class targets are left exactly as they
      were, and only targeted names are added. */
  lemma {:induction false} ScanAllFrame(m: ReplaceMap, cp: Classpath, h: Hierarchy, recs: seq<ClassMetadata>, k: string)
    requires ScanAll(m, cp, h, recs).Ok?
    requires forall i :: 0 <= i < |recs| ==> !Targets(recs[i], k)
    ensures k in ScanAll(m, cp, h, recs).value <==> k in m
    ensures k in m ==> ScanAll(m, cp, h, recs).value[k] == m[k]
    decreases |recs|
  {
    if recs != [] {
      ScanAllFrame(m, cp, h, recs[..|recs| - 1], k);
      assert !Targets(recs[|recs| - 1], k);
    }
  }

  /** Every entry the scan adds or overwrites is fresh: not yet used by the
      instantiation hook. */
  lemma {:induction false} ScanAllFresh(m: ReplaceMap, cp: Classpath, h: Hierarchy, recs: seq<ClassMetadata>)
    requires ScanAll(m, cp, h, recs).Ok?
    ensures var r := ScanAll(m, cp, h, recs).value;
            forall k :: k in r && (k !in m || r[k] != m[k]) ==> !r[k].replaced
    decreases |recs|
  {
    if recs != [] {
      var p := recs[..|recs| - 1];
      ScanAllFresh(m, cp, h, p);
      ScanAllSnoc(m, cp, h, p, recs[|recs| - 1]);
      assert p + [recs[|recs| - 1]] == recs;
    }
  }

  /** A name the scan adds is the target of some scanned class. */
  lemma {:induction false} ScanAllOrigin(m: ReplaceMap, cp: Classpath, h: Hierarchy, recs: seq<ClassMetadata>)
    requires ScanAll(m, cp, h, recs).Ok?
    ensures forall k :: k in ScanAll(m, cp, h, recs).value && k !in m ==>
              exists rec :: rec in recs && Targets(rec, k)
    decreases |recs|
  {
    if recs != [] {
      var p := recs[..|recs| - 1];
      var last := recs[|recs| - 1];
      ScanAllOrigin(m, cp, h, p);
      forall k | k in ScanAll(m, cp, h, recs).value && k !in m
        ensures exists rec :: rec in recs && Targets(rec, k)
      {
        if k in ScanAll(m, cp, h, p).value {
          var rec :| rec in p && Targets(rec, k);
          assert rec in recs;
        } else {
          assert last in recs;
        }
      }
    }
  }

  /** After a successful scan, every `@Replace` class's target is registered
      with an order at most the class's own. */
  predicate Covers(m: ReplaceMap, recs: seq<ClassMetadata>) {
    forall i :: 0 <= i < |recs| && recs[i].replace.Some? ==>
      HasSuperclass(recs[i]) && TargetName(recs[i]) in m && m[TargetName(recs[i])].order <= OrderOf(recs[i])
  }

  lemma CoversRefined(m: ReplaceMap, m': ReplaceMap, recs: seq<ClassMetadata>)
    requires Covers(m, recs) && Refines(m, m')
    ensures Covers(m', recs)
  {
  }

  lemma {:induction false} ScanAllCovers(m: ReplaceMap, cp: Classpath, h: Hierarchy, recs: seq<ClassMetadata>)
    requires ScanAll(m, cp, h, recs).Ok?
    ensures Covers(ScanAll(m, cp, h, recs).value, recs)
    decreases |recs|
  {
    if recs != [] {
      var p := recs[..|recs| - 1];
      var last := recs[|recs| - 1];
      ScanAllSnoc(m, cp, h, p, last);
      assert p + [last] == recs;
      ScanAllCovers(m, cp, h, p);
      var before := ScanAll(m, cp, h, p).value;
      var after := ScanOne(before, cp, h, last).value;
      CoversRefined(before, after, p);
      CoversExtended(after, p, last);
    }
  }

  /** The class just scanned is covered by the registry the scan left. */
  lemma CoversExtended(m: ReplaceMap, recs: seq<ClassMetadata>, last: ClassMetadata)
    requires Covers(m, recs)
    requires last.replace.Some? ==> HasSuperclass(last) && TargetName(last) in m && m[TargetName(last)].order <= OrderOf(last)
    ensures Covers(m, recs + [last])
  {
    var all := recs + [last];
    forall i | 0 <= i < |all| && all[i].replace.Some?
      ensures HasSuperclass(all[i]) && TargetName(all[i]) in m && m[TargetName(all[i])].order <= OrderOf(all[i])
    {
      if i < |recs| {
        assert all[i] == recs[i];
      }
    }
  }

  /** A class the registry already covers changes nothing when scanned again. */
  lemma ScanOneCovered(m: ReplaceMap, cp: Classpath, h: Hierarchy, rec: ClassMetadata)
    requires rec.replace.Some? ==> HasSuperclass(rec) && TargetName(rec) in m && m[TargetName(rec)].order <= OrderOf(rec)
    ensures ScanOne(m, cp, h, rec) == Ok(m)
  {
    if rec.replace.Some? {
      assert Targets(rec, TargetName(rec));
    }
  }

  lemma {:induction false} ScanAllCoveredFixed(m: ReplaceMap, cp: Classpath, h: Hierarchy, recs: seq<ClassMetadata>)
    requires Covers(m, recs)
    ensures ScanAll(m, cp, h, recs) == Ok(m)
    decreases |recs|
  {
    if recs != [] {
      var p := recs[..|recs| - 1];
      assert Covers(m, p) by {
        forall i | 0 <= i < |p| && p[i].replace.Some?
          ensures HasSuperclass(p[i]) && TargetName(p[i]) in m && m[TargetName(p[i])].order <= OrderOf(p[i])
        {
          assert p[i] == recs[i];
        }
      }
      ScanAllCoveredFixed(m, cp, h, p);
      ScanOneCovered(m, cp, h, recs[|recs| - 1]);
    }
  }

  /** Scanning the same classes a second time leaves the registry unchanged,
      so overlapping scan roots are harmless. */
  lemma ScanAllIdempotent(m: ReplaceMap, cp: Classpath, h: Hierarchy, recs: seq<ClassMetadata>)
    requires ScanAll(m, cp, h, recs).Ok?
    ensures ScanAll(ScanAll(m, cp, h, recs).value, cp, h, recs) == ScanAll(m, cp, h, recs)
  {
    ScanAllCovers(m, cp, h, recs);
    ScanAllCoveredFixed(ScanAll(m, cp, h, recs).value, cp, h, recs);
  }

  /** An entry stored with the smallest int can never be displaced: no int
      is strictly smaller. */
  lemma {:induction false} MinOrderIsFinal(m: ReplaceMap, cp: Classpath, h: Hierarchy, recs: seq<ClassMetadata>, name: string)
    requires name in m && m[name].order == INT_MIN
    requires ScanAll(m, cp, h, recs).Ok?
    ensures name in ScanAll(m, cp, h, recs).value && ScanAll(m, cp, h, recs).value[name] == m[name]
    decreases |recs|
  {
    if recs != [] {
      var p := recs[..|recs| - 1];
      MinOrderIsFinal(m, cp, h, p, name);
      ScanAllRefines(m, cp, h, p);
    }
  }

  /** `recs[i]` is the class that should win `name`: it has the smallest
      order among the classes targeting `name`, and every earlier one has a
      strictly larger order (ties go to the first seen). */
  ghost predicate IsWinner(recs: seq<ClassMetadata>, name: string, i: int) {
    && 0 <= i < |recs| && Targets(recs[i], name)
    && (forall j :: 0 <= j < |recs| && Targets(recs[j], name) ==> OrderOf(recs[i]) <= OrderOf(recs[j]))
    && (forall j :: 0 <= j < i && Targets(recs[j], name) ==> OrderOf(recs[i]) < OrderOf(recs[j]))
  }

  lemma WinnerKept(p: seq<ClassMetadata>, last: ClassMetadata, name: string, w: int)
    requires IsWinner(p, name, w)
    requires Targets(last, name) ==> OrderOf(p[w]) <= OrderOf(last)
    ensures IsWinner(p + [last], name, w)
  {
    var recs := p + [last];
    forall j | 0 <= j < |recs| && Targets(recs[j], name)
      ensures OrderOf(recs[w]) <= OrderOf(recs[j])
    {
      if j < |p| {
        assert recs[j] == p[j];
      }
    }
  }

  lemma WinnerTaken(p: seq<ClassMetadata>, last: ClassMetadata, name: string, w: int)
    requires IsWinner(p, name, w)
    requires Targets(last, name) && OrderOf(last) < OrderOf(p[w])
    ensures IsWinner(p + [last], name, |p|)
  {
    var recs := p + [last];
    forall j | 0 <= j < |recs| && Targets(recs[j], name)
      ensures OrderOf(recs[|p|]) <= OrderOf(recs[j])
    {
      if j < |p| {
        assert recs[j] == p[j];
      }
    }
    forall j | 0 <= j < |p| && Targets(recs[j], name)
      ensures OrderOf(recs[|p|]) < OrderOf(recs[j])
    {
      assert recs[j] == p[j];
    }
  }

  lemma WinnerFirst(p: seq<ClassMetadata>, last: ClassMetadata, name: string)
    requires forall i :: 0 <= i < |p| ==> !Targets(p[i], name)
    requires Targets(last, name)
    ensures IsWinner(p + [last], name, |p|)
  {
    var recs := p + [last];
    assert forall j :: 0 <= j < |p| ==> recs[j] == p[j];
  }

  /** For a name not registered before the scan, the stored entry is the
      winner's: its order and its class. */
  lemma {:induction false} ScanAllWinner(m: ReplaceMap, cp: Classpath, h: Hierarchy, recs: seq<ClassMetadata>, name: string)
    requires name !in m
    requires ScanAll(m, cp, h, recs).Ok?
    requires exists i :: 0 <= i < |recs| && Targets(recs[i], name)
    ensures name in ScanAll(m, cp, h, recs).value
    ensures exists i :: IsWinner(recs, name, i)
                        && ScanAll(m, cp, h, recs).value[name].order == OrderOf(recs[i])
                        && ScanAll(m, cp, h, recs).value[name].clazz == recs[i].className
    decreases |recs|
  {
    var n := |recs| - 1;
    var p := recs[..n];
    var last := recs[n];
    assert recs == p + [last];
    ScanAllSnoc(m, cp, h, p, last);
    var before := ScanAll(m, cp, h, p).value;
    var after := ScanAll(m, cp, h, recs).value;
    assert ScanOne(before, cp, h, last) == Ok(after);
    if exists i :: 0 <= i < |p| && Targets(p[i], name) {
      ScanAllWinner(m, cp, h, p, name);
      var w :| IsWinner(p, name, w) && before[name].order == OrderOf(p[w]) && before[name].clazz == p[w].className;
      assert p[w] == recs[w];
      if Targets(last, name) && OrderOf(last) < before[name].order {
        WinnerTaken(p, last, name, w);
        assert after[name].order == OrderOf(recs[n]) && after[name].clazz == recs[n].className;
      } else {
        assert after[name] == before[name];
        WinnerKept(p, last, name, w);
      }
    } else {
      ScanAllFrame(m, cp, h, p, name);
      WinnerFirst(p, last, name);
      assert after[name].order == OrderOf(recs[n]) && after[name].clazz == recs[n].className;
    }
  }

  /** Two constructor-reflection classes replacing the same bean with the
      same order: the scan succeeds and the first one scanned keeps the bean. */
  lemma TieGoesToFirst(cp: Classpath, h: Hierarchy, first: ClassMetadata, second: ClassMetadata, name: string)
    requires Targets(first, name) && Targets(second, name)
    requires OrderOf(first) == OrderOf(second)
    requires !HasText(first.replace.value.instantiateMethod)
    ensures ScanAll(map[], cp, h, [first, second]).Ok?
    ensures name in ScanAll(map[], cp, h, [first, second]).value
    ensures ScanAll(map[], cp, h, [first, second]).value[name].clazz == first.className
  {
    ScanAllSnoc(map[], cp, h, [], first);
    assert [] + [first] == [first];
    var m1 := ScanOne(map[], cp, h, first);
    assert m1.Ok? && name in m1.value && m1.value[name].order == OrderOf(first);
    assert ScanAll(map[], cp, h, [first]) == m1;
    ScanAllSnoc(map[], cp, h, [first], second);
    assert [first] + [second] == [first, second];
    assert ScanOne(m1.value, cp, h, second) == m1;
  }
}

=== FILE: replace_annotation.dfy ===
/** The attributes of the `@Replace` annotation and their defaults. */
module ReplaceAnnotation {
  import opened JavaLang

  /** An `order` attribute: any Java int; smaller wins. */
  type Order = Int32

  /** Default order: the lowest priority. */
  const DEFAULT_ORDER: Order := INT_MAX

  /** `@Replace(value, order, instantiateMethod)` as read from class metadata. */
  datatype Replace = Replace(value: string, order: Order, instantiateMethod: string)

  /** A bare `@Replace`: name inferred, lowest priority, constructor reflection. */
  const DEFAULT_REPLACE: Replace := Replace("", DEFAULT_ORDER, "")

  /** A non-blank `instantiateMethod` selects the named static method;
      otherwise the class's constructor is used. */
  predicate UsesFactoryMethod(r: Replace) {
    HasText(r.instantiateMethod)
  }

  /** The default order is the greatest: any explicit order ties or beats it. */
  lemma DefaultOrderIsLowestPriority(o: Order)
    ensures o <= DEFAULT_REPLACE.order
    ensures !UsesFactoryMethod(DEFAULT_REPLACE)
  {
  }
}

=== FILE: results.dfy ===
/** Optional values, the exceptions the starter raises, and a failure-compatible
    Result so that `:-` propagates the first exception like a Java `throw`. */
module Results {

  datatype Option<+T> = None | Some(value: T)

  /** Every exception the modelled code raises, named after its cause. */
  datatype Error =
    /** `Assert.isTrue(hasText(superClassName))` during the scan. */
    | NoSuperclass(className: string)
    /** `Class.forName` could not find the class. */
    | ClassNotFound(className: string)
    /** No static method of that name (NoSuchMethodException). */
    | NoSuchStaticMethod(className: string, methodName: string)
    /** Two or more static methods of that name (IllegalArgumentException). */
    | AmbiguousStaticMethod(className: string, methodName: string)
    /** A factory-method parameter outside the whitelist (IllegalArgumentException). */
    | UnsupportedParameter(className: string, methodName: string, typeName: string)
    /** Replacement is enabled but the registry is empty. */
    | EmptyReplaceMap
    /** The merged definition is not an AbstractBeanDefinition. */
    | NotAbstractBeanDefinition(beanName: string)
    /** The replacement class has no public constructor. */
    | NoPublicConstructor(className: string)
    /** Several public constructors and none carries @Autowired. */
    | NoAutowiredConstructor(className: string)

  datatype Result<+T> = Ok(value: T) | Err(error: Error) {

    predicate IsFailure() {
      Err?
    }

    function PropagateFailure<U>(): Result<U>
      requires Err?
    {
      Err(error)
    }

    function Extract(): T
      requires Ok?
    {
      value
    }
  }
}

=== FILE: scan_paths.dfy ===
/** `ReplaceBeanInitializer.packages`: reduces the configured scan roots by
    sorting them and dropping every root that lies under its sorted
    predecessor. Only adjacent pairs are compared, so the result covers the
    input but is not always minimal. */
module ScanPaths {
  import opened JavaLang
  import opened StringOrder

  /** `(p + ".").startsWith(q + ".")`: `p` is `q` or a package below it. */
  predicate Under(p: string, q: string) {
    q + "." <= p + "."
  }

  /** Under, without the appended dots: equal, or a proper prefix followed
      by a dot. */
  lemma UnderIff(p: string, q: string)
    ensures Under(p, q) <==> p == q || (|q| < |p| && p[..|q|] == q && p[|q|] == '.')
  {
    var pd, qd := p + ".", q + ".";
    if qd <= pd {
      assert qd == pd[..|qd|];
      if |q| < |p| {
        assert qd[|q|] == '.' && pd[|q|] == p[|q|];
        assert qd[..|q|] == q && pd[..|q|] == p[..|q|];
      } else {
        assert q == qd[..|q|] && p == pd[..|p|];
      }
    }
    if |q| < |p| && p[..|q|] == q && p[|q|] == '.' {
      assert pd[..|qd|] == qd;
    }
  }

  /** A set with one element is that element's singleton. */
  lemma SingletonIs(s: set<string>, x: string)
    requires |s| == 1 && x in s
    ensures s == {x}
  {
    assert |s - {x}| == 0;
    assert s - {x} == {};
  }

  /** Two strings that differ at a position neither is a prefix of the other. */
  lemma DifferAt(a: string, b: string, k: nat)
    requires k < |a| && k < |b| && a[k] != b[k]
    ensures !(a <= b)
  {
  }

  /** `q.rest` lies under `q`. */
  lemma UnderChild(q: string, rest: string)
    ensures Under(q + "." + rest, q)
  {
    assert (q + "." + rest + ".")[..|q + "."|] == q + ".";
  }

  lemma UnderTransitive(a: string, b: string, c: string)
    requires Under(a, b) && Under(b, c)
    ensures Under(a, c)
  {
  }

  /** Trimming keeps a root under its ancestor as far as a class name
      without blanks or control characters is concerned: a class the
      trimmed root `p` contains is also in the trimmed root `q` above it. */
  lemma UnderTrim(p: string, q: string, className: string)
    requires Under(p, q)
    requires forall k :: 0 <= k < |className| ==> !IsTrimmable(className[k])
    requires StartsWith(className, Trim(p) + ".")
    ensures StartsWith(className, Trim(q) + ".")
  {
    UnderIff(p, q);
    if p != q {
      var i, j :| 0 <= i <= j <= |p| && Trim(p) == p[i..j]
                  && (forall k :: 0 <= k < i ==> IsTrimmable(p[k]))
                  && (forall k :: j <= k < |p| ==> IsTrimmable(p[k]));
      TrimmedAncestor(p, q, className, i, j);
    }
  }

  lemma TrimmedAncestor(p: string, q: string, className: string, i: nat, j: nat)
    requires |q| < |p| && p[..|q|] == q && p[|q|] == '.'
    requires forall k :: 0 <= k < |className| ==> !IsTrimmable(className[k])
    requires i <= j <= |p| && StartsWith(className, p[i..j] + ".")
    requires forall k :: 0 <= k < i ==> IsTrimmable(p[k])
    requires forall k :: j <= k < |p| ==> IsTrimmable(p[k])
    ensures StartsWith(className, Trim(q) + ".")
  {
    assert !IsTrimmable(p[|q|]);
    assert i <= |q| < j;
    forall k | i <= k < j
      ensures p[k] == className[k - i]
    {
      assert p[i..j][k - i] == p[k];
    }
    forall k | 0 <= k < |q|
      ensures q[k] == p[k]
    {
      assert q[k] == p[..|q|][k];
    }
    TrimmedPrefix(q, className, i);
    var t := className[..|q| + 1 - i];
    assert |t| == |q[i..] + "."|;
    forall k | 0 <= k < |t|
      ensures t[k] == (q[i..] + ".")[k]
    {
      assert t[k] == p[k + i];
    }
  }

  /** A name whose leading run up to `i` is trimmable and whose rest is a
      blank-free prefix of a class name trims to that rest. */
  lemma TrimmedPrefix(q: string, className: string, i: nat)
    requires i <= |q| && |q| - i <= |className|
    requires forall k :: 0 <= k < i ==> IsTrimmable(q[k])
    requires forall k :: i <= k < |q| ==> q[k] == className[k - i]
    requires forall k :: 0 <= k < |className| ==> !IsTrimmable(className[k])
    ensures Trim(q) == q[i..]
  {
    assert i < |q| ==> q[i] == className[0];
    assert i < |q| ==> q[|q| - 1] == className[|q| - 1 - i];
    TrimIs(q, i, |q|);
  }

  /** Whether the sorted entry at `i` stays: the first always does, any
      other unless it lies under the entry just before it. */
  predicate Kept(sorted: seq<string>, i: nat)
    requires i < |sorted|
  {
    i == 0 || !Under(sorted[i], sorted[i - 1])
  }

  /** The kept entries among the first `n` sorted entries, in order (the
      positional form of `result.removeAll(removes)` on distinct entries). */
  function Reduce(sorted: seq<string>, n: nat): (r: seq<string>)
    requires n <= |sorted|
    ensures forall x :: x in r <==> exists i :: 0 <= i < n && sorted[i] == x && Kept(sorted, i)
    ensures |r| <= n
  {
    if n == 0 then []
    else Reduce(sorted, n - 1) + (if Kept(sorted, n - 1) then [sorted[n - 1]] else [])
  }

  /** `packages`: nothing for no roots, the single root unchanged, otherwise
      the sorted roots without those under their sorted predecessor. */
  function Packages(roots: set<string>): (r: seq<string>)
    ensures roots == {} ==> r == []
    ensures forall x :: x in r ==> x in roots
    ensures Ascending(r)
    ensures roots != {} ==> |r| > 0 && IsLeast(r[0], roots)
  {
    if |roots| == 0 then []
    else if |roots| == 1 then
      var x :| x in roots;
      SingletonIs(roots, x);
      [x]
    else
      var sorted := SortedSet(roots);
      ReduceAscending(sorted, |sorted|);
      ReduceHead(sorted, |sorted|);
      AscendingHeadIsLeast(sorted);
      assert (set x | x in sorted) == roots;
      Reduce(sorted, |sorted|)
  }

  lemma {:induction false} ReduceAscending(sorted: seq<string>, n: nat)
    requires n <= |sorted| && Ascending(sorted)
    ensures Ascending(Reduce(sorted, n))
    ensures forall i :: 0 <= i < |Reduce(sorted, n)| ==> exists j :: 0 <= j < n && Reduce(sorted, n)[i] == sorted[j]
  {
    if n > 0 {
      ReduceAscending(sorted, n - 1);
      var prev := Reduce(sorted, n - 1);
      if Kept(sorted, n - 1) {
        var r := prev + [sorted[n - 1]];
        forall i, k | 0 <= i < k < |r|
          ensures Less(r[i], r[k])
        {
          if k == |prev| {
            var j :| 0 <= j < n - 1 && prev[i] == sorted[j];
          } else {
            assert r[i] == prev[i] && r[k] == prev[k];
          }
        }
        forall i | 0 <= i < |r|
          ensures exists j :: 0 <= j < n && r[i] == sorted[j]
        {
          if i < |prev| {
            var j :| 0 <= j < n - 1 && prev[i] == sorted[j];
            assert r[i] == sorted[j];
          } else {
            assert r[i] == sorted[n - 1];
          }
        }
      } else {
        assert Reduce(sorted, n) == prev;
      }
    }
  }

  lemma {:induction false} ReduceHead(sorted: seq<string>, n: nat)
    requires 0 < n <= |sorted|
    ensures |Reduce(sorted, n)| > 0 && Reduce(sorted, n)[0] == sorted[0]
  {
    if n > 1 {
      ReduceHead(sorted, n - 1);
    }
  }

  /** An input root is dropped exactly when it lies under its sorted
      predecessor; so `com.app2` survives next to `com.app`. */
  lemma PackagesKeepsIff(roots: set<string>, i: nat)
    requires i < |SortedSet(roots)|
    ensures SortedSet(roots)[i] in Packages(roots) <==> Kept(SortedSet(roots), i)
  {
    var sorted := SortedSet(roots);
    if |roots| == 1 {
      assert i == 0 && sorted[0] in roots;
      SingletonIs(roots, sorted[0]);
    } else if SortedSet(roots)[i] in Packages(roots) {
      var j :| 0 <= j < |sorted| && sorted[j] == sorted[i] && Kept(sorted, j);
      LessAsymmetric(sorted[i], sorted[i]);
      assert j == i;
    }
  }

  /** Every input root is, or lies under, some output root: the reduced list
      still scans everything the configured one did. */
  lemma {:induction false} ReduceCovers(sorted: seq<string>, i: nat)
    requires i < |sorted|
    ensures exists q :: q in Reduce(sorted, |sorted|) && Under(sorted[i], q)
  {
    if Kept(sorted, i) {
      assert sorted[i] in Reduce(sorted, |sorted|);
      assert Under(sorted[i], sorted[i]);
    } else {
      ReduceCovers(sorted, i - 1);
      var q :| q in Reduce(sorted, |sorted|) && Under(sorted[i - 1], q);
      UnderTransitive(sorted[i], sorted[i - 1], q);
    }
  }

  lemma PackagesCover(roots: set<string>, p: string)
    requires p in roots
    ensures exists q :: q in Packages(roots) && Under(p, q)
  {
    if |roots| == 1 {
      var x :| x in roots;
      SingletonIs(roots, x);
      assert Under(p, p);
    } else {
      var sorted := SortedSet(roots);
      var i :| 0 <= i < |sorted| && sorted[i] == p;
      ReduceCovers(sorted, i);
    }
  }

  /** For class names free of blanks and control characters the reduced,
      trimmed roots still contain every class a trimmed input root did. */
  lemma PackagesCoverClasses(roots: set<string>, p: string, className: string)
    requires p in roots
    requires forall k :: 0 <= k < |className| ==> !IsTrimmable(className[k])
    requires StartsWith(className, Trim(p) + ".")
    ensures exists q :: q in Packages(roots) && StartsWith(className, Trim(q) + ".")
  {
    PackagesCover(roots, p);
    var q :| q in Packages(roots) && Under(p, q);
    UnderTrim(p, q, className);
  }

  /** Without that restriction a class can be lost: of the roots `a ` and
      `a .b` only `a ` survives, which trims to `a`, while the class
      `a .b.X` lies under the trimmed `a .b` but not under `a`. */
  lemma BlankRootLosesClass(roots: set<string>, a: string, ab: string, className: string)
    requires a == "a " && ab == "a .b" && className == "a .b.X"
    requires roots == {a, ab}
    ensures Packages(roots) == [a]
    ensures StartsWith(className, Trim(ab) + ".")
    ensures !StartsWith(className, Trim(a) + ".")
  {
    BlankRootAbsorbs(roots, a, ab);
    TrimIs(a, 0, 1);
    TrimIs(ab, 0, 4);
    assert Trim(ab) + "." == className[..5];
    assert className[1] != (Trim(a) + ".")[1];
  }

  lemma BlankRootAbsorbs(roots: set<string>, a: string, ab: string)
    requires a == "a " && ab == "a .b"
    requires roots == {a, ab}
    ensures Packages(roots) == [a]
  {
    assert |roots| == 2 && a != ab;
    var sorted := [a, ab];
    assert Less(a, ab);
    SortedSetIsUnique(roots, sorted);
    assert ab[..|a|] == a && ab[|a|] == '.';
    UnderIff(ab, a);
    assert Reduce(sorted, 1) == [a];
  }

  /** The reduction is not minimal: `a.c` lies under `a` but survives,
      because it is only compared with its neighbour `a.b`. */
  lemma NotMinimal(roots: set<string>, a: string, ab: string, ac: string)
    requires a == "a" && ab == "a.b" && ac == "a.c"
    requires roots == {a, ab, ac}
    ensures Packages(roots) == [a, ac]
    ensures Under(ac, a)
  {
    assert ab == a + "." + "b" && ac == a + "." + "c";
    UnderChild(a, "b");
    UnderChild(a, "c");
    ThreeRootsSorted(roots, a, ab, ac);
    var sorted := [a, ab, ac];
    DifferAt(ab + ".", ac + ".", 2);
    assert Reduce(sorted, 1) == [a];
    assert Reduce(sorted, 2) == [a];
  }

  lemma ThreeRootsSorted(roots: set<string>, a: string, ab: string, ac: string)
    requires a == "a" && ab == "a.b" && ac == "a.c"
    requires roots == {a, ab, ac}
    ensures |roots| > 1 && SortedSet(roots) == [a, ab, ac]
  {
    assert a != ab && a != ac && ab[2] != ac[2];
    assert |roots| == 3;
    assert Less(a, ab) && Less(a, ac) && Less(ab, ac);
    SortedSetIsUnique(roots, [a, ab, ac]);
  }

  /** The dot boundary: `com.app2` is not under `com.app`, while
      `com.app.service` is. */
  lemma DotBoundary(q: string, sibling: string, child: string)
    requires q == "com.app" && sibling == "com.app2" && child == "com.app.service"
    ensures !Under(sibling, q)
    ensures Under(child, q)
  {
    DifferAt(q + ".", sibling + ".", 7);
    assert child == q + "." + "service";
    UnderChild(q, "service");
  }

  /** Roots are compared before they are trimmed: in `com.app, com.app.web`
      the second root keeps its leading blank, sorts first, and is not
      recognised as lying under `com.app`, so both survive. */
  lemma UntrimmedRootsKept(roots: set<string>, q: string, child: string)
    requires q == "com.app" && child == " com.app.web"
    requires roots == {q, child}
    ensures Packages(roots) == [child, q]
  {
    assert child[0] != q[0];
    assert |roots| == 2;
    var sorted := [child, q];
    assert Less(child, q);
    SortedSetIsUnique(roots, sorted);
    DifferAt(child + ".", q + ".", 0);
    assert Reduce(sorted, 1) == [child];
  }
}

=== FILE: string_order.dfy ===
/** `String.compareTo` as a strict order, and the unique ascending sequence of
    a finite set of strings (what sorting a HashSet or a map's keys yields). */
module StringOrder {

  /** `a.compareTo(b) < 0`: first differing character decides, a proper
      prefix comes first. */
  predicate Less(a: string, b: string)
    decreases |a|
  {
    if |a| == 0 then |b| > 0
    else if |b| == 0 then false
    else if a[0] != b[0] then a[0] < b[0]
    else Less(a[1..], b[1..])
  }

  /** `Less` is the first-difference order below. */
  lemma {:induction false} LessIsLexBefore(a: string, b: string)
    ensures Less(a, b) <==> LexBefore(a, b)
    decreases |a|
  {
    if |a| > 0 && |b| > 0 {
      if a[0] != b[0] {
        assert a[..0] == b[..0];
      } else {
        LexBeforeTail(a, b);
        LessIsLexBefore(a[1..], b[1..]);
      }
    }
  }

  /** The textbook definition: `a` is a proper prefix of `b`, or at the
      first position where they differ `a` has the smaller character. */
  ghost predicate LexBefore(a: string, b: string) {
    (|a| < |b| && a == b[..|a|])
    || exists k :: 0 <= k < |a| && k < |b| && a[..k] == b[..k] && a[k] < b[k]
  }

  /** A common first character does not change the comparison. */
  lemma LexBeforeTail(a: string, b: string)
    requires |a| > 0 && |b| > 0 && a[0] == b[0]
    ensures LexBefore(a, b) <==> LexBefore(a[1..], b[1..])
  {
    if |a| < |b| && a == b[..|a|] {
      PrefixTail(a, b);
    }
    if |a| - 1 < |b| - 1 && a[1..] == b[1..][..|a| - 1] {
      PrefixCons(a, b);
    }
    if k :| 0 <= k < |a| && k < |b| && a[..k] == b[..k] && a[k] < b[k] {
      DifferTail(a, b, k);
    }
    if k :| 0 <= k < |a| - 1 && k < |b| - 1 && a[1..][..k] == b[1..][..k] && a[1..][k] < b[1..][k] {
      DifferCons(a, b, k);
    }
  }

  lemma PrefixTail(a: string, b: string)
    requires 0 < |a| < |b| && a == b[..|a|]
    ensures a[1..] == b[1..][..|a| - 1]
  {
  }

  lemma PrefixCons(a: string, b: string)
    requires |a| > 0 && |b| > 0 && a[0] == b[0]
    requires |a| < |b| && a[1..] == b[1..][..|a| - 1]
    ensures a == b[..|a|]
  {
    assert forall k :: 0 < k < |a| ==> a[k] == a[1..][k - 1];
  }

  lemma DifferTail(a: string, b: string, k: nat)
    requires |a| > 0 && |b| > 0 && a[0] == b[0]
    requires k < |a| && k < |b| && a[..k] == b[..k] && a[k] < b[k]
    ensures LexBefore(a[1..], b[1..])
  {
    assert k > 0 by {
      assert a[0] == b[0];
    }
    assert a[1..][..k - 1] == a[1..k] == b[1..k] == b[1..][..k - 1];
    assert a[1..][k - 1] < b[1..][k - 1];
  }

  lemma DifferCons(a: string, b: string, k: nat)
    requires |a| > 0 && |b| > 0 && a[0] == b[0]
    requires k < |a| - 1 && k < |b| - 1 && a[1..][..k] == b[1..][..k] && a[1..][k] < b[1..][k]
    ensures LexBefore(a, b)
  {
    assert a[..k + 1] == [a[0]] + a[1..][..k];
    assert b[..k + 1] == [b[0]] + b[1..][..k];
    assert a[k + 1] < b[k + 1];
  }

  lemma {:induction false} LessAsymmetric(a: string, b: string)
    ensures Less(a, b) ==> !Less(b, a)
    decreases |a|
  {
    if |a| > 0 && |b| > 0 && a[0] == b[0] {
      LessAsymmetric(a[1..], b[1..]);
    }
  }

  lemma {:induction false} LessTransitive(a: string, b: string, c: string)
    requires Less(a, b) && Less(b, c)
    ensures Less(a, c)
    decreases |a|
  {
    if |a| > 0 && a[0] == b[0] && b[0] == c[0] {
      LessTransitive(a[1..], b[1..], c[1..]);
    }
  }

  lemma {:induction false} LessTotal(a: string, b: string)
    ensures a == b || Less(a, b) || Less(b, a)
    decreases |a|
  {
    if |a| > 0 && |b| > 0 && a[0] == b[0] {
      LessTotal(a[1..], b[1..]);
      if a[1..] == b[1..] {
        assert a == [a[0]] + a[1..] && b == [b[0]] + b[1..];
      }
    }
  }

  /** `m` is the smallest element of `s`. */
  predicate IsLeast(m: string, s: set<string>) {
    m in s && forall x :: x in s && x != m ==> Less(m, x)
  }

  lemma {:induction false} LeastExists(s: set<string>)
    requires s != {}
    ensures exists m :: IsLeast(m, s)
    decreases |s|
  {
    var x :| x in s;
    if s != {x} {
      var rest := s - {x};
      LeastExists(rest);
      var m :| IsLeast(m, rest);
      LessTotal(x, m);
      if Less(x, m) {
        forall y | y in s && y != x
          ensures Less(x, y)
        {
          if y != m {
            LessTransitive(x, m, y);
          }
        }
        assert IsLeast(x, s);
      } else {
        assert IsLeast(m, s);
      }
    } else {
      assert IsLeast(x, s);
    }
  }

  lemma LeastUnique(s: set<string>)
    ensures forall m, n :: IsLeast(m, s) && IsLeast(n, s) ==> m == n
  {
    forall m, n | IsLeast(m, s) && IsLeast(n, s)
      ensures m == n
    {
      LessAsymmetric(m, n);
    }
  }

  /** Strictly ascending, hence free of duplicates. */
  predicate Ascending(r: seq<string>) {
    forall i, j :: 0 <= i < j < |r| ==> Less(r[i], r[j])
  }

  /** The elements of `s` in ascending order. */
  function SortedSet(s: set<string>): (r: seq<string>)
    ensures Ascending(r)
    ensures forall x :: x in r <==> x in s
    ensures |r| == |s|
    decreases |s|
  {
    if s == {} then []
    else
      LeastExists(s);
      LeastUnique(s);
      var m :| IsLeast(m, s);
      var rest := SortedSet(s - {m});
      assert forall j :: 0 <= j < |rest| ==> rest[j] in s - {m};
      [m] + rest
  }

  lemma {:induction false} AscendingHeadIsLeast(r: seq<string>)
    requires Ascending(r) && |r| > 0
    ensures IsLeast(r[0], set x | x in r)
    ensures r[0] !in r[1..]
  {
    forall x | x in r && x != r[0]
      ensures Less(r[0], x)
    {
      var j :| 0 <= j < |r| && r[j] == x;
    }
    forall j | 1 <= j < |r|
      ensures r[j] != r[0]
    {
      LessAsymmetric(r[0], r[j]);
    }
  }

  lemma NoElementsIsEmpty(s: seq<string>)
    ensures (forall x :: x !in s) ==> s == []
  {
    if s != [] {
      assert s[0] in s;
    }
  }

  /** There is exactly one ascending arrangement of a set: any ascending
      sequence with the same elements is `SortedSet`'s result. */
  lemma {:induction false} AscendingUnique(a: seq<string>, b: seq<string>)
    requires Ascending(a) && Ascending(b)
    requires forall x :: x in a <==> x in b
    ensures a == b
    decreases |a|
  {
    if a == [] {
      NoElementsIsEmpty(b);
    } else {
      assert a[0] in b;
      AscendingHeadIsLeast(a);
      AscendingHeadIsLeast(b);
      assert (set x | x in a) == (set x | x in b);
      LeastUnique(set x | x in a);
      assert a[0] == b[0];
      forall x
        ensures x in a[1..] <==> x in b[1..]
      {
        assert x in a <==> x in a[1..] || x == a[0] by {
          assert a == [a[0]] + a[1..];
        }
        assert x in b <==> x in b[1..] || x == b[0] by {
          assert b == [b[0]] + b[1..];
        }
      }
      AscendingUnique(a[1..], b[1..]);
      assert a == [a[0]] + a[1..] && b == [b[0]] + b[1..];
    }
  }

  lemma SortedSetIsUnique(s: set<string>, r: seq<string>)
    requires Ascending(r)
    requires forall x :: x in r <==> x in s
    ensures SortedSet(s) == r
  {
    AscendingUnique(SortedSet(s), r);
  }
}

=== FILE: summary.dfy ===
/** `replaceMapToString` and `ReplaceInfo.print`: the startup listing of the
    registry, one line per bean name in ascending name order. */
module Summary {
  import opened Results
  import opened JavaLang
  import opened StringOrder
  import opened Registry

  const HEADER: string := "替换Bean配置如下:\n"

  /** `ReplaceInfo.print`: `clazz[order]`, or `clazz[order,method]` for a
      static instantiation method. */
  function Print(info: ReplaceInfo): (r: string)
    ensures |r| > |info.clazz| + 2 && r[..|info.clazz|] == info.clazz
    ensures r[|info.clazz|] == '[' && r[|r| - 1] == ']'
  {
    info.clazz + "[" + IntToString(info.order) + Closing(info)
  }

  /** What `print` shows after the order: `,method]` or just `]`. */
  function Closing(info: ReplaceInfo): (r: string)
    ensures |r| > 0 && !NumberChar(r[0]) && r[|r| - 1] == ']'
    ensures r[0] == ',' <==> info.factory.Some?
  {
    (if info.factory.Some? then "," + info.factory.value.staticMethod.name else "") + "]"
  }

  /** The name of the static instantiation method `print` shows, if any. */
  function FactoryName(info: ReplaceInfo): Option<string> {
    if info.factory.Some? then Some(info.factory.value.staticMethod.name) else None
  }

  /** `print` loses nothing it shows: for class names without `[`, two
      entries print alike only if they agree on class, order and method name. */
  lemma PrintInjective(a: ReplaceInfo, b: ReplaceInfo)
    requires '[' !in a.clazz && '[' !in b.clazz
    requires Print(a) == Print(b)
    ensures a.clazz == b.clazz && a.order == b.order && FactoryName(a) == FactoryName(b)
  {
    var da, db := IntToString(a.order), IntToString(b.order);
    var ta, tb := Closing(a), Closing(b);
    PrintParts(a);
    PrintParts(b);
    SplitAtFirst(a.clazz, "[" + (da + ta), b.clazz, "[" + (db + tb), '[');
    assert da + ta == ("[" + (da + ta))[1..];
    assert db + tb == ("[" + (db + tb))[1..];
    NumberChars(a.order);
    NumberChars(b.order);
    SplitAfterNumber(da, ta, db, tb);
    IntToStringRoundTrip(a.order);
    IntToStringRoundTrip(b.order);
    ClosingInjective(a, b);
  }

  lemma PrintParts(info: ReplaceInfo)
    ensures Print(info) == info.clazz + ("[" + (IntToString(info.order) + Closing(info)))
  {
  }

  lemma NumberChars(n: int)
    ensures forall k :: 0 <= k < |IntToString(n)| ==> NumberChar(IntToString(n)[k])
  {
  }

  lemma ClosingInjective(a: ReplaceInfo, b: ReplaceInfo)
    requires Closing(a) == Closing(b)
    ensures FactoryName(a) == FactoryName(b)
  {
    if a.factory.Some? && b.factory.Some? {
      var ta := Closing(a);
      assert a.factory.value.staticMethod.name == ta[1..|ta| - 1] == b.factory.value.staticMethod.name;
    }
  }

  /** Two texts that each continue with `c` right after a `c`-free part
      share that part. */
  lemma SplitAtFirst(u: string, x: string, v: string, y: string, c: char)
    requires c !in u && c !in v && |x| > 0 && |y| > 0 && x[0] == c && y[0] == c
    requires u + x == v + y
    ensures u == v && x == y
  {
    var w := u + x;
    assert forall k :: 0 <= k < |u| ==> w[k] == u[k] != c;
    assert forall k :: 0 <= k < |v| ==> w[k] == v[k] != c;
    assert w[|u|] == c && w[|v|] == c;
    assert |u| == |v|;
    assert u == w[..|u|] && v == w[..|v|];
  }

  predicate NumberChar(c: char) {
    c == '-' || IsDigit(c)
  }

  /** A printed number ends where the first character that is neither a
      digit nor a minus sign begins. */
  lemma SplitAfterNumber(u: string, x: string, v: string, y: string)
    requires forall k :: 0 <= k < |u| ==> NumberChar(u[k])
    requires forall k :: 0 <= k < |v| ==> NumberChar(v[k])
    requires |x| > 0 && |y| > 0 && !NumberChar(x[0]) && !NumberChar(y[0])
    requires u + x == v + y
    ensures u == v && x == y
  {
    var w := u + x;
    assert forall k :: 0 <= k < |u| ==> w[k] == u[k];
    assert forall k :: 0 <= k < |v| ==> w[k] == v[k];
    assert w[|u|] == x[0] && w[|v|] == y[0];
    assert |u| == |v|;
    assert u == w[..|u|] && v == w[..|v|];
  }

  /** One listing line: `"  " + print() + "替换" + name + ";\n"`. */
  function Line(name: string, info: ReplaceInfo): (r: string)
    ensures |r| > 4 && r[..2] == "  " && r[|r| - 2..] == ";\n"
    ensures '\n' !in name && '\n' !in info.clazz
            && (info.factory.Some? ==> '\n' !in info.factory.value.staticMethod.name) ==>
              forall k :: 0 <= k < |r| - 1 ==> r[k] != '\n'
  {
    NumberChars(info.order);
    PrintParts(info);
    "  " + Print(info) + "替换" + name + ";\n"
  }

  /** The lines for `names`, in that order. */
  function Render(m: ReplaceMap, names: seq<string>): string
    requires forall i :: 0 <= i < |names| ==> names[i] in m
  {
    if names == [] then "" else Line(names[0], m[names[0]]) + Render(m, names[1..])
  }

  /** `replaceMapToString(assertEmpty)`: fails exactly when asked to assert a
      non-empty registry and the registry is empty; otherwise the header and
      one line per entry, the entries in ascending name order. */
  function ReplaceMapToString(m: ReplaceMap, assertEmpty: bool): (r: Result<string>)
    ensures r.Err? <==> assertEmpty && |m| == 0
    ensures r.Err? ==> r.error == EmptyReplaceMap
    ensures r.Ok? ==> exists names :: Ascending(names) && (forall k :: k in names <==> k in m)
                                      && r.value == HEADER + Render(m, names)
    ensures r.Ok? && |m| == 0 ==> r.value == HEADER
  {
    if assertEmpty && |m| == 0 then Err(EmptyReplaceMap)
    else
      var names := SortedSet(m.Keys);
      Ok(HEADER + Render(m, names))
  }

  /** The body of the listing is fully determined by the registry: any two
      listings of the same registry are identical, whatever the iteration
      order of the underlying hash map. */
  lemma SummaryDeterministic(m: ReplaceMap, a: seq<string>, b: seq<string>)
    requires Ascending(a) && (forall k :: k in a <==> k in m)
    requires Ascending(b) && (forall k :: k in b <==> k in m)
    ensures Render(m, a) == Render(m, b)
  {
    AscendingUnique(a, b);
  }
}
